=== FILE: README.md ===
# Cable-design validation pipeline — a Dafny model

This project models the request pipeline of a NestJS service that validates a cable design
against IEC 60502-1 with the help of a chat-completion model. `POST /design/validate` accepts
exactly one of three channels:

- a `designId`, looked up in the database;
- a `structuredInput` object;
- a `freeText` description.

`DesignService.validateDesign` then runs five stages in order:

1. `validateSingleInput` rejects a request that does not use exactly one channel (BadRequest).
2. `DesignNormalizer.normalize` turns the channel into a tagged payload. A stored record loses
   `_id` and `designId`. A structured object is passed through. Free text goes through the
   rule-based `TextExtractionService.extract`.
3. `AiService.validateDesign` asks the model. It strips code fences from the reply, parses it
   (falling back to `{}`), and shapes `fields`, `validation` and `confidence`. Any throw inside
   its `try` becomes ServiceUnavailable.
4. A guard turns a non-array `validation` into BadGateway.
5. The report joins every validation entry with the provided value and rolls the statuses up
   into `overallStatus`. It also copies `confidence.overall`.

The modules follow the source files:

- `JsValues` and `Strings` — the JavaScript values and string operations the code relies on.
- `InputTypeValidator` — the single-input check.
- `TextExtraction` — the rule-based extractor.
- `DesignNormalizer` — the three-way normaliser.
- `AiService` — reply cleaning and shaping.
- `DesignService` — the orchestration and the report.

`DesignTypes` holds the request body and the normalised payload. `Results` holds the error
kinds: the four HTTP exceptions the code throws, and the 500 NestJS sends for any other
exception.

The pure parts of the code are functions. The parts that work by reassigning local variables
are methods proved equal to those functions:

- the extractor's six conditional writes (`TextExtraction.Extract`);
- the `forEach` that folds a `fields` array (`AiService.FoldFields`);
- the `let fields` / `let validation` / `let confidence` reassignments (`AiService.ShapeFields`,
  `ShapeValidation`, `ShapeConfidence`, `ShapeReply`).

Among the proved consequences of the code:

- The pipeline can only fail with four errors (`DesignService.NeverBadGateway`): BadRequest,
  NotFound, ServiceUnavailable, or the 500 NestJS sends for an unhandled exception. In the
  model that 500 comes from building the prompt for a design with an own `toString` property
  (a second source is listed under "Left out"). Neither BadGateway is reachable:
  - the extractor's, because the input check guarantees a free text;
  - the guard's, because the AI service always returns an array.
- A reply the parser rejects still produces a report with no rows, overall `PASS` and confidence
  0.5 (`DesignService.UnparseableReplyPasses`).
- An entry whose `status` is missing or falsy becomes `FAIL` and fails the whole report
  (`DesignService.MissingStatusFails`).
- The prompt embeds the design with a template literal, outside the service's `try`.
  - A design object converts to `[object Object]`, so the model is asked the same question for
    every design.
  - A design with an own `toString` property makes the conversion throw, and the request ends
    with a 500 (`DesignService.StructuredToStringIsInternalError`).
  - Two successful requests that receive the same completion therefore agree on everything but
    `inputSource` (`DesignService.SameReplySameReport`). The completion is sampled, so two
    requests need not receive the same one.

## Model

| member | source | states |
|---|---|---|
| JsValues.Truthy | src/design/validators/input-type.validator.ts:9 | definition: undefined, null, false, 0 and `''` are falsy; every array and object, even an empty one, is truthy |
| JsValues.Nullish | src/design/ai/ai.service.ts:131 | definition: the values `??` and `?.` treat as missing, undefined and null |
| JsValues.Get | src/design/ai/ai.service.ts:117 | definition: `v.name` reads the object's own property, and undefined on any other value that is not null or undefined |
| JsValues.LookupOr | src/design/design.service.ts:35 | definition: `obj[key]`, the own property's value or undefined |
| JsValues.ToStr | src/design/ai/ai.service.ts:119 | definition: ToString as used for property keys: strings unchanged, `undefined`, `null`, `true`/`false`, numbers by Number::toString, arrays joined, objects `[object Object]` |
| JsValues.Join | src/design/ai/ai.service.ts:119 | definition: `join(",")`, where null and undefined elements print as `''` |
| JsValues.ToNumber | src/design/ai/ai.service.ts:148 | definition: ToNumber as `>` and `/` apply it: null 0, booleans 0 and 1, strings and arrays by StringToNumber, undefined and objects NaN |
| Strings.StartsWith | src/design/ai/ai.service.ts:105 | definition: a prefix test, used to match a fence at the scan position |
| Strings.Contains | src/design/ai/text-extraction.service.ts:17 | definition: `includes`, the pattern is a prefix of the text or occurs in its tail |
| Strings.IsSpace | src/design/ai/ai.service.ts:105 | definition: the characters `trim` strips, the WhiteSpace and LineTerminator code points of ECMAScript |
| JsValues.Keys | src/design/ai/ai.service.ts:136 | `Object.keys` lists the property names, one per property, in insertion order |
| JsValues.Find | src/design/design.service.ts:35 | an own-property read finds nothing exactly when the name is not a key, and otherwise a property that object really has |
| JsValues.FindDistinct | src/design/ai/ai.service.ts:136-141 | in an object with distinct names, every property is found with its own value |
| JsValues.Assign | src/design/ai/ai.service.ts:119 | `obj[key] = val` makes `key` read back as `val` and leaves every other key's value unchanged |
| JsValues.AssignKeys | src/design/ai/text-extraction.service.ts:17-39 | an assignment keeps the key order and appends a new key at the end |
| JsValues.AssignDistinct | src/design/ai/ai.service.ts:118-120 | assigning keeps the property names distinct |
| Strings.ContainsAtIndex | src/design/ai/text-extraction.service.ts:21-23 | `includes` holds as soon as the pattern occurs at some index |
| Strings.ContainedChars | src/design/ai/text-extraction.service.ts:17-19 | a string that includes the pattern contains each of the pattern's characters |
| Strings.Lower | src/design/ai/text-extraction.service.ts:25 | `toLowerCase` keeps the length and lowers each character |
| Strings.ContainsLower | src/design/ai/text-extraction.service.ts:25-27 | an occurrence survives lower-casing of both the text and the pattern |
| Strings.LeadingSpace | src/design/ai/ai.service.ts:105 | counts the white space that opens the text: all skipped characters are spaces and the next is not |
| Strings.TrailingSpace | src/design/ai/ai.service.ts:105 | the same at the end of the text |
| Strings.Trim | src/design/ai/ai.service.ts:105 | `trim` returns an infix, drops only white space, and leaves no white space at either end |
| InputTypeValidator.TruthyOnly | src/design/validators/input-type.validator.ts:5-9 | `filter(Boolean)` keeps every truthy value of the input and nothing else, and is never longer than the input |
| InputTypeValidator.Channels | src/design/validators/input-type.validator.ts:5-8 | definition: the array `[designId, structuredInput, freeText]`, a missing channel being undefined |
| DesignTypes.HasText | src/design/validators/input-type.validator.ts:9 | definition: a string channel is truthy when present and non-empty, as `filter(Boolean)` and the normaliser's `if (dto.designId)` test it |
| InputTypeValidator.TruthyOnlyOfThree | src/design/validators/input-type.validator.ts:5-11 | the filtered length is the number of truthy channels |
| InputTypeValidator.ValidateSingleInput | src/design/validators/input-type.validator.ts:4-16 | passes if and only if exactly one channel is truthy; otherwise BadRequest with the fixed message |
| InputTypeValidator.EmptyIdIsNotCounted | src/design/validators/input-type.validator.ts:5-9 | an empty `designId` next to a free text passes |
| InputTypeValidator.EmptyObjectIsCounted | src/design/validators/input-type.validator.ts:5-9 | an empty structured object next to a free text is two channels and fails |
| TextExtraction.Fires | src/design/ai/text-extraction.service.ts:17-39 | definition: the trigger occurs in the text, lower-cased first for the three case-insensitive rules |
| TextExtraction.Applied | src/design/ai/text-extraction.service.ts:17-39 | definition: one `if (…includes(…)) result.key = value` step, writing the rule's value only when it fires |
| TextExtraction.ApplyRules | src/design/ai/text-extraction.service.ts:17-39 | definition: the rules from the given one on, applied in source order |
| TextExtraction.ExtractedFields | src/design/ai/text-extraction.service.ts:15-41 | definition: the object the extractor returns for a string, the six rules applied in order to `{}` |
| TextExtraction.Extraction | src/design/ai/text-extraction.service.ts:14-44 | definition: a text gives its fields; a missing text throws in `includes`, which the catch turns into BadGateway |
| TextExtraction.Extract | src/design/ai/text-extraction.service.ts:14-44 | the six conditional writes produce exactly the rule fold; a missing text is BadGateway |
| TextExtraction.Unrolled | src/design/ai/text-extraction.service.ts:17-39 | the fold over the six rules equals the six steps applied in source order |
| TextExtraction.ApplyRulesFind | src/design/ai/text-extraction.service.ts:17-39 | a rule's key holds that rule's value exactly when it fires; keys no rule writes keep their value |
| TextExtraction.ExtractedField | src/design/ai/text-extraction.service.ts:17-39 | each of the six fields is present if and only if its trigger occurs, with the fixed value |
| TextExtraction.OnlyRuleKeys | src/design/ai/text-extraction.service.ts:15-41 | no key other than the six rule keys is ever produced |
| TextExtraction.StandardNeedsCapitals | src/design/ai/text-extraction.service.ts:17-19 | text without a capital I never sets `standard` (the match is case-sensitive) |
| TextExtraction.MaterialIgnoresCase | src/design/ai/text-extraction.service.ts:25-27 | `CU` anywhere sets `conductor_material` to `Cu` |
| TextExtraction.AnyTenSetsCsa | src/design/ai/text-extraction.service.ts:21-23 | any `10`, even inside a longer number, sets `csa` to 10 |
| TextExtraction.NothingFires | src/design/ai/text-extraction.service.ts:15-41 | when no rule fires the object is unchanged |
| TextExtraction.UnrecognisedTextIsEmpty | src/design/ai/text-extraction.service.ts:15-41 | unrecognised text yields `{}` and not an error |
| DesignNormalizer.WithoutIdentity | src/normalizers/design.normalizer.ts:26-27 | the rest object keeps exactly the non-identity properties, with their values |
| DesignNormalizer.Normalize | src/normalizers/design.normalizer.ts:20-49 | the source tag is DB, STRUCTURED or TEXT exactly under the branch conditions; fails exactly for an unknown id or a missing text |
| DesignNormalizer.DesignIdWins | src/normalizers/design.normalizer.ts:20-33 | a non-empty id wins; an unknown id is NotFound, a known one gives the stripped record |
| DesignNormalizer.StoredRecordStripped | src/normalizers/design.normalizer.ts:26-31 | the DB payload reads as the stored record on every key except `_id` and `designId` |
| DesignNormalizer.StructuredPassThrough | src/normalizers/design.normalizer.ts:36-41 | without an id, a structured object is passed through unchanged |
| DesignNormalizer.TextPayloadIsExtracted | src/normalizers/design.normalizer.ts:44-49 | otherwise the payload is exactly the extractor's fields |
| DesignNormalizer.MissingTextIsBadGateway | src/normalizers/design.normalizer.ts:44 | a missing free text makes the extractor throw, reported as BadGateway |
| AiService.PromptInput | src/design/ai/ai.service.ts:29-33 | the conversion throws if and only if the design has an own `toString`; otherwise the design reads `[object Object]` |
| AiService.AskModel | src/design/ai/ai.service.ts:29-166 | a design with an own `toString` is a 500 before the call; any other design gets the shaped answer to the one fixed prompt text |
| AiService.ParserInput | src/design/ai/ai.service.ts:101-105 | definition: a missing reply is `''`; fences are stripped, then white space is trimmed |
| AiService.ParsedReply | src/design/ai/ai.service.ts:107-113 | definition: the parsed value, or `{}` when JSON.parse throws |
| AiService.StepOf | src/design/ai/ai.service.ts:118-119 | definition: a nullish element throws, a truthy `field` writes `expected` under the key ToString(field), anything else is skipped |
| AiService.Apply | src/design/ai/ai.service.ts:118-120 | definition: one forEach step on the dictionary so far; a throw is final |
| AiService.Run | src/design/ai/ai.service.ts:118-120 | definition: the steps applied in order to `{}` |
| AiService.Folded | src/design/ai/ai.service.ts:116-120 | definition: the dictionary the forEach over a `fields` array leaves, or None when it throws |
| AiService.Scaled | src/design/ai/ai.service.ts:148-150 | definition: `o > 1 ? o / 100 : o` with ToNumber applied to o, where NaN compares false |
| AiService.LabelValue | src/design/ai/ai.service.ts:152-155 | definition: high 0.9, medium 0.6, low 0.3, anything else 0 |
| AiService.StripFences | src/design/ai/ai.service.ts:105 | removing fences never lengthens the text |
| AiService.LeadingBacktick | src/design/ai/ai.service.ts:105 | a backtick leading the output led the input |
| AiService.LeadingBackticks | src/design/ai/ai.service.ts:105 | two backticks leading the output led the input |
| AiService.NoFenceSurvives | src/design/ai/ai.service.ts:105 | no triple backtick is left, even one formed by joining the pieces around a removed fence |
| AiService.NoBacktickUnchanged | src/design/ai/ai.service.ts:105 | text without backticks is left unchanged |
| AiService.ClosingFenceRemoved | src/design/ai/ai.service.ts:105 | a closing fence after backtick-free text is removed |
| AiService.FencedBlockUnwrapped | src/design/ai/ai.service.ts:105 | a json code block comes out as its body |
| AiService.ParserInputClean | src/design/ai/ai.service.ts:101-105 | JSON.parse never sees a fence; a missing reply is the empty string |
| AiService.TrimKeepsOut | src/design/ai/ai.service.ts:105 | trimming cannot create an occurrence |
| AiService.InfixContains | src/design/ai/ai.service.ts:105 | an occurrence in an infix is an occurrence in the whole |
| AiService.OccurrenceIndex | src/design/ai/ai.service.ts:105 | an included pattern occurs at some index |
| AiService.StepsOf | src/design/ai/ai.service.ts:118-120 | one step per `fields` element, in order |
| AiService.RunSnoc | src/design/ai/ai.service.ts:118-120 | one more element is one more step of the fold |
| AiService.FaultPersists | src/design/ai/ai.service.ts:118-120 | after a throw, the rest of the elements do not matter |
| AiService.FoldFields | src/design/ai/ai.service.ts:116-120 | the `forEach` loop computes the fold of the elements, or the throw |
| AiService.RunFaults | src/design/ai/ai.service.ts:118-120 | the fold throws if and only if one of its steps does |
| AiService.FoldFaultsOnNullish | src/design/ai/ai.service.ts:118-120 | the fold throws if and only if an element is null or undefined |
| AiService.UnwrittenKeyAbsent | src/design/ai/ai.service.ts:118-120 | a key no element writes is absent |
| AiService.LastWriteWins | src/design/ai/ai.service.ts:118-120 | a key holds the value of the last element that writes it |
| AiService.FoldedFields | src/design/ai/ai.service.ts:116-120 | each key holds the `expected` of the last element whose `field` names it, and no other key appears |
| AiService.RunDistinct | src/design/ai/ai.service.ts:118-120 | the folded dictionary never repeats a key |
| AiService.ShapedFields | src/design/ai/ai.service.ts:116-123 | an object or null is kept, an array becomes the dictionary its forEach leaves (`Folded`), anything else gives `{}`; throws if and only if an array element is nullish |
| AiService.ShapedEntry | src/design/ai/ai.service.ts:128-133 | a falsy status becomes `FAIL` and a falsy comment `''`, and truthy ones are kept; a nullish `expected` becomes `fields[v.field]`, and other values are kept; throws exactly on a nullish element or a fallback into null `fields` |
| AiService.Defaulted | src/design/ai/ai.service.ts:127-132 | definition: the entry object built from an element that does not throw: a falsy status becomes 'FAIL', a null or undefined `expected` becomes `fields[field]`, a falsy comment becomes '' |
| AiService.ShapedEntries | src/design/ai/ai.service.ts:127-133 | the map keeps length and order and throws if and only if an element throws |
| AiService.EntriesTruthy | src/design/ai/ai.service.ts:127-132 | every mapped entry has a truthy status |
| AiService.PassEntries | src/design/ai/ai.service.ts:136-141 | one PASS entry per key, expecting that key's value, with the fixed comment |
| AiService.AutoPass | src/design/ai/ai.service.ts:136-141 | `Object.keys` on null throws; otherwise one entry per property |
| AiService.PassTruthy | src/design/ai/ai.service.ts:133-141 | every auto-pass entry has a truthy status |
| AiService.AutoPassEntries | src/design/ai/ai.service.ts:134-141 | entry i is the PASS entry for property i with its own value |
| AiService.ShapedValidation | src/design/ai/ai.service.ts:124-141 | an array is mapped by ShapedEntries and throws if and only if an element throws; `true` or `"valid"` gives the auto-pass entries of `fields` and throws on null `fields`; any other shape gives no entries; every status is truthy |
| AiService.RawConfidence | src/design/ai/ai.service.ts:143-157 | the confidence before the fallback is never null or undefined |
| AiService.NormalizedConfidence | src/design/ai/ai.service.ts:143-160 | after the fallback the confidence is neither missing nor 0 |
| AiService.ShapedParsed | src/design/ai/ai.service.ts:114-162 | every throw of the three stages on the parsed value is ServiceUnavailable, and every success is well shaped |
| AiService.ShapedReply | src/design/ai/ai.service.ts:95-166 | every failure is ServiceUnavailable; a failed call fails; every success is well shaped; which replies fail is stated by ShapedReplyFails |
| AiService.ShapeFields | src/design/ai/ai.service.ts:116-123 | the reassignments compute ShapedFields |
| AiService.ShapeValidation | src/design/ai/ai.service.ts:126-142 | the reassignments compute ShapedValidation |
| AiService.ShapeConfidence | src/design/ai/ai.service.ts:143-160 | the reassignments compute NormalizedConfidence |
| AiService.ShapeReply | src/design/ai/ai.service.ts:95-166 | the method body computes ShapedReply |
| AiService.UnparseableReplyDegrades | src/design/ai/ai.service.ts:107-113 | an unparseable reply gives `{}`, no entries and confidence 0.5, not an error |
| AiService.NullReplyIsUnavailable | src/design/ai/ai.service.ts:117 | a reply that parses to null is ServiceUnavailable |
| AiService.EmptyObjectShapes | src/design/ai/ai.service.ts:106-162 | the `{}` fallback shapes to no fields, no entries and confidence 0.5 |
| AiService.ShapedStages | src/design/ai/ai.service.ts:114-162 | a successful reply's fields, validation and confidence are the three stages applied to the parsed reply |
| AiService.ParsedStages | src/design/ai/ai.service.ts:114-162 | the same for any parsed value that shapes without a throw, which is then not null or undefined |
| AiService.ShapedReplyFails | src/design/ai/ai.service.ts:106-166 | a reply fails if and only if it parses to null or undefined, its `fields` fold throws, or its `validation` throws |
| AiService.NullishEntryIsUnavailable | src/design/ai/ai.service.ts:127-132 | a null or undefined element of a `validation` array ends in ServiceUnavailable |
| AiService.AutoPassOnNullFieldsIsUnavailable | src/design/ai/ai.service.ts:133-135 | `validation` `true` or `"valid"` with `fields: null` ends in ServiceUnavailable, since `Object.keys(null)` throws |
| AiService.ValidationFollowsArray | src/design/ai/ai.service.ts:127-133 | a `validation` array maps entry by entry |
| AiService.FieldsFollowArray | src/design/ai/ai.service.ts:116-120 | a `fields` array in a successful reply is folded without a throw, and the result's `fields` is exactly the dictionary its forEach leaves |
| AiService.AutoPassCoversFields | src/design/ai/ai.service.ts:134-141 | `true` or `"valid"` auto-passes every field of the object, in key order |
| AiService.PercentIsScaled | src/design/ai/ai.service.ts:146-148 | a number above 1 is divided by 100 |
| AiService.ConfidenceNotClamped | src/design/ai/ai.service.ts:146-148 | 250 becomes 2.5 and negative numbers are kept: nothing is clamped |
| AiService.FractionKept | src/design/ai/ai.service.ts:146-160 | a number in (0, 1] is kept; 0 and a missing confidence become 0.5 |
| AiService.OverallLikeNumber | src/design/ai/ai.service.ts:149-150 | `{overall: n}` follows the bare-number rule |
| AiService.NonNumericOverallKept | src/design/ai/ai.service.ts:149-150 | a non-numeric string `overall` is passed on as a string |
| AiService.LabelsIgnoreCase | src/design/ai/ai.service.ts:151-156 | high, medium and low, in any case, give 0.9, 0.6 and 0.3; other strings give 0.5 |
| AiService.OtherShapesFallBack | src/design/ai/ai.service.ts:145-160 | a boolean, or an object or array without `overall`, gives 0.5 |
| DesignService.AsValue | src/design/ai/ai.service.ts:162 | definition: the result object `{fields, validation, confidence: {overall}}` |
| DesignService.GuardPasses | src/design/design.service.ts:25 | definition: the response is not nullish and its `validation` is a truthy array |
| DesignService.Assemble | src/design/design.service.ts:25-44 | definition: BadGateway when the guard fails, otherwise the report |
| DesignService.Provided | src/design/design.service.ts:35 | definition: `fields?.[field]`, i.e. undefined when `fields` is null, otherwise the own property named ToString(field) |
| DesignService.ServiceOutputPassesGuard | src/design/design.service.ts:25-27 | whatever the AI service returns passes the guard |
| DesignService.Rows | src/design/design.service.ts:33-39 | one row per entry, in order, copying the entry and reading `provided` from `fields` (undefined when `fields` is null) |
| DesignService.AllPass | src/design/design.service.ts:40-42 | true if and only if every status is exactly `PASS` (so an empty list passes) |
| DesignService.BuildReport | src/design/design.service.ts:30-44 | `results` are exactly the joined rows of the validation entries; PASS if and only if all statuses are PASS; confidence is `overall`, or 0 when missing |
| DesignService.ValidateDesign | src/design/design.service.ts:14-44 | success implies the input check and the normaliser succeeded, and the source tag is the normaliser's; StagesSucceedReport gives the converse |
| DesignService.StagesSucceedReport | src/design/design.service.ts:14-44 | a request that passes the check, normalises to a payload the prompt can hold, and gets a reply that shapes without a throw receives exactly the report built from that reply |
| DesignService.BadRequestFirst | src/design/design.service.ts:16 | a request without exactly one channel is BadRequest, whatever the database or the model |
| DesignService.UnknownDesignNotFound | src/design/design.service.ts:19 | an unknown design id is NotFound before the model is asked |
| DesignService.CallFailureUnavailable | src/design/design.service.ts:22 | a failed AI call is ServiceUnavailable |
| DesignService.OwnToStringIsInternalError | src/design/ai/ai.service.ts:29-33 | a payload with an own `toString` ends in a 500 before the model is asked |
| DesignService.StructuredToStringIsInternalError | src/normalizers/design.normalizer.ts:36-41 | a structured object with a `toString` property, sent on its own, ends in a 500 |
| DesignService.FreeTextPresent | src/normalizers/design.normalizer.ts:44 | past the input check, the text branch always has a non-empty text |
| DesignService.NeverBadGateway | src/design/design.service.ts:14-27 | the pipeline fails only with BadRequest, NotFound, the prompt's 500 or ServiceUnavailable, never BadGateway |
| DesignService.ReportFollowsReply | src/design/design.service.ts:30-44 | a report is built from the shaped answer to the fixed prompt text, and its confidence is never 0 or missing |
| DesignService.UnparseableReplyPasses | src/design/design.service.ts:40-43 | an unparseable reply yields no rows, overall PASS and confidence 0.5 |
| DesignService.AutoPassedReplyPasses | src/design/design.service.ts:40-42 | an auto-passed reply always yields overall PASS |
| DesignService.MissingStatusFails | src/design/ai/ai.service.ts:130 | an entry of the reply's array without a truthy status makes the report FAIL |
| DesignService.SameReplySameReport | src/design/ai/ai.service.ts:29-33 | two successful requests that receive the same completion get the same fields, rows, verdict and confidence, whatever their designs |

## Left out

- The chat-completion client, its model name and the rest of the prompt text are left out. The
  completion a request receives is a parameter of that request (`oracle`). It is applied to the
  only part of the prompt that could vary: the text inserted for the design.
- Logging is left out.
- The DTO decorators and ValidationPipe are left out. A channel is taken to be absent or of its
  declared type, and null and undefined are both "absent".
- JSON.parse, Number::toString and StringToNumber are parameters (`Host`). The JSON grammar and
  IEEE-754 formatting are not modelled.
- Numbers are exact reals. NaN, infinities, negative zero and floating-point rounding of `/ 100`
  are not modelled.
- Objects are ordered property lists. JavaScript lists integer-like keys first; that reordering
  is not modelled.
- Member reads see own properties only. Names inherited from `Object.prototype` (`toString`,
  `constructor`, `__proto__`) are not modelled.
- JsValues.ToStr: converts every object to `[object Object]`. It does not model the TypeError
  raised when an object from the reply with an own `toString` property is used as a key.
  - Inside the AI service's `try` (`AiService.StepOf`, the `expected` fallback of
    `AiService.ShapedEntry`) that error would be ServiceUnavailable.
  - In `DesignService.Provided`, which is outside any `try`, it would be a 500. So
    `DesignService.ValidateDesign` misses that 500 for such a reply.
  - Only the prompt's conversion of the design (`AiService.PromptInput`) models the throw.
- JsValues.ToNumber: gives NaN for every object. It does not model the TypeError an object with
  an own `toString` property raises in `overall > 1`; inside the `try` that would be
  ServiceUnavailable.
- `toLowerCase` lowers A to Z only. Other Unicode case mappings are not modelled.
- The database is a map from design id to stored record. MongoDB, `lean()` and BSON value types
  (ObjectId, Date) are not modelled. The record's `_id`, `designId` and timestamps are plain
  properties.
- `async`/`await` is not modelled. Each stage is a sequential call that returns a value or an
  error.
- The configuration check in the AiService constructor is not part of this model.
- Behaviour the code does not have, which the model therefore does not have either:
  - The extractor has no minimum-length check and no "nothing recognised" error. It returns `{}`
    instead.
  - `IEC` and `10` are matched case-sensitively and without word boundaries.
  - The status and comment defaults use `||`, not `??`.
  - The confidence is not clamped to [0, 1].
  - An empty structured object counts as a channel.

=== FILE: ai_service.dfy ===
/**
 * AiService.validateDesign after the network call: the reply text is cleaned and parsed, and
 * the parsed value is shaped into fields, validation entries and a confidence figure.
 */
module AiService {
  import opened Results
  import opened JsValues
  import Strings

  const Fence := "```"
  const JsonTag := "json"
  const AutoPassComment := "Auto-passed (AI returned valid)"
  const UnavailableMessage := "AI service unavailable"
  const FallbackConfidence: real := 0.5
  const InternalErrorMessage := "Internal server error"

  /**
   * What the chat-completion call gives back: it throws, or it answers; `content` is None when
   * the first choice, its message or its content is missing.
   */
  datatype Completion = CallFailed | Replied(content: Option<string>)

  /** One validation entry of the result. */
  datatype Entry = Entry(field: Value, status: Value, expected: Value, comment: Value)

  /** The service's result; `confidence` is the value returned as `confidence.overall`. */
  datatype AiResult = AiResult(fields: Value, validation: seq<Entry>, confidence: Value)

  /** What ToString gives for an object that keeps the inherited `toString`. */
  const ObjectText := "[object Object]"

  /**
   * The text the template literal `"${input}"` puts into the prompt, or None when the conversion
   * throws. ToString on an object calls its `toString`. The inherited one gives "[object Object]",
   * whatever the other properties are. An own `toString` property holds a JSON value, which is
   * not callable; the `valueOf` tried next returns the object itself, so the conversion throws a
   * TypeError.
   */
  function PromptInput(input: seq<Prop>): (r: Option<string>)
    ensures r.None? <==> "toString" in Keys(input)
    ensures r.Some? ==> r.value == ObjectText
  {
    if Find(input, "toString").Some? then None else Some(ObjectText)
  }

  // ---------------------------------------------------------------------------------------------
  // Reply text

  /**
   * `s.replace(/```(json)?/g, '')`: every run of three backticks is removed, together with a
   * `json` right after it; the scan resumes after each removed match.
   */
  function StripFences(s: string): (r: string)
    ensures |r| <= |s|
    decreases |s|
  {
    if s == [] then []
    else if Strings.StartsWith(s, Fence) then
      if Strings.StartsWith(s[3..], JsonTag) then StripFences(s[7..]) else StripFences(s[3..])
    else [s[0]] + StripFences(s[1..])
  }

  /** A backtick at the head of the output was a backtick at the head of the input. */
  lemma LeadingBacktick(s: string)
    ensures StripFences(s) != [] && StripFences(s)[0] == '`' ==> s != [] && s[0] == '`'
  {
  }

  /** Two backticks at the head of the output were two backticks at the head of the input. */
  lemma LeadingBackticks(s: string)
    ensures Strings.StartsWith(StripFences(s), "``") ==> Strings.StartsWith(s, "``")
  {
    if s != [] && !Strings.StartsWith(s, Fence) {
      LeadingBacktick(s[1..]);
      assert StripFences(s)[1..] == StripFences(s[1..]);
    }
  }

  /** No fence is left in the stripped text, not even one formed by joining the pieces around a removed fence. */
  lemma {:induction false} NoFenceSurvives(s: string)
    ensures !Strings.Contains(StripFences(s), Fence)
    decreases |s|
  {
    if s == [] {
    } else if Strings.StartsWith(s, Fence) {
      if Strings.StartsWith(s[3..], JsonTag) {
        NoFenceSurvives(s[7..]);
      } else {
        NoFenceSurvives(s[3..]);
      }
    } else {
      var rest := StripFences(s[1..]);
      NoFenceSurvives(s[1..]);
      assert StripFences(s) == [s[0]] + rest;
      LeadingBackticks(s[1..]);
      assert Strings.StartsWith(StripFences(s), Fence) ==> Strings.StartsWith(rest, "``") by {
        if |rest| >= 2 {
          assert rest[..2] == StripFences(s)[1..3];
        }
      }
      assert |s| >= 3 ==> s[..3] == [s[0]] + s[1..][..2];
      assert StripFences(s)[1..] == rest;
    }
  }

  /** Text without a backtick is left as it is. */
  lemma {:induction false} NoBacktickUnchanged(s: string)
    requires '`' !in s
    ensures StripFences(s) == s
    decreases |s|
  {
    if s != [] {
      assert s[0] != '`';
      NoBacktickUnchanged(s[1..]);
    }
  }

  /** A closing fence after backtick-free text is removed and the text kept. */
  lemma {:induction false} ClosingFenceRemoved(s: string)
    requires '`' !in s
    ensures StripFences(s + Fence) == s
    decreases |s|
  {
    if s == [] {
      assert StripFences(Fence) == StripFences(Fence[3..]);
    } else {
      assert s[0] != '`';
      assert (s + Fence)[1..] == s[1..] + Fence;
      ClosingFenceRemoved(s[1..]);
    }
  }

  /** A reply wrapped in a json code block comes out as the block's body. */
  lemma FencedBlockUnwrapped(body: string)
    requires '`' !in body
    ensures StripFences(Fence + JsonTag + body + Fence) == body
  {
    var s := Fence + JsonTag + body + Fence;
    assert Strings.StartsWith(s, Fence) && Strings.StartsWith(s[3..], JsonTag);
    assert s[7..] == body + Fence;
    ClosingFenceRemoved(body);
  }

  /** The text handed to JSON.parse: a missing reply counts as the empty string. */
  function ParserInput(content: Option<string>): string {
    Strings.Trim(StripFences(content.GetOr("")))
  }

  /** The parser never sees a fence, and a missing reply is the empty string. */
  lemma ParserInputClean(content: Option<string>)
    ensures !Strings.Contains(ParserInput(content), Fence)
    ensures content.None? ==> ParserInput(content) == ""
  {
    var raw := content.GetOr("");
    NoFenceSurvives(raw);
    TrimKeepsOut(StripFences(raw), Fence);
  }

  /** Trimming cannot create an occurrence. */
  lemma TrimKeepsOut(s: string, p: string)
    ensures !Strings.Contains(s, p) ==> !Strings.Contains(Strings.Trim(s), p)
  {
    var r := Strings.Trim(s);
    var i, j :| 0 <= i <= j <= |s| && r == s[i..j];
    if Strings.Contains(r, p) {
      InfixContains(s, i, j, p);
    }
  }

  /** An occurrence in an infix of s is an occurrence in s. */
  lemma InfixContains(s: string, i: nat, j: nat, p: string)
    requires i <= j <= |s| && Strings.Contains(s[i..j], p)
    ensures Strings.Contains(s, p)
  {
    var k := OccurrenceIndex(s[i..j], p);
    forall m | 0 <= m < |p|
      ensures s[i + k + m] == p[m]
    {
      assert s[i..j][k..k + |p|][m] == p[m];
    }
    assert s[i + k..i + k + |p|] == p;
    Strings.ContainsAtIndex(s, p, i + k);
  }

  /** A position at which p occurs. */
  lemma {:induction false} OccurrenceIndex(s: string, p: string) returns (k: nat)
    requires Strings.Contains(s, p)
    ensures k + |p| <= |s| && s[k..k + |p|] == p
    decreases |s|
  {
    if s[..|p|] == p {
      k := 0;
    } else {
      var k' := OccurrenceIndex(s[1..], p);
      assert s[1..][k'..k' + |p|] == s[k' + 1..k' + 1 + |p|];
      k := k' + 1;
    }
  }

  /** `parsed`: the parsed reply, or `{}` when JSON.parse throws. */
  function ParsedReply(content: Option<string>, host: Host): Value {
    match host.parse(ParserInput(content))
    case Some(v) => v
    case None => Obj([])
  }

  // ---------------------------------------------------------------------------------------------
  // fields

  /** What one element of a `fields` array does to the dictionary being built. */
  datatype FieldStep = Fault | Skip | Write(key: string, val: Value)

  /** `if (f.field) fields[f.field] = f.expected`; reading a member of null or undefined throws. */
  function StepOf(f: Value, host: Host): FieldStep {
    if Nullish(f) then Fault
    else if Truthy(Get(f, "field")) then Write(ToStr(Get(f, "field"), host), Get(f, "expected"))
    else Skip
  }

  /** The steps of the elements of a `fields` array, in order. */
  function StepsOf(items: seq<Value>, host: Host): (steps: seq<FieldStep>)
    ensures |steps| == |items|
    ensures forall j :: 0 <= j < |items| ==> steps[j] == StepOf(items[j], host)
  {
    if items == [] then [] else StepsOf(items[..|items| - 1], host) + [StepOf(items[|items| - 1], host)]
  }

  /** One step applied to the dictionary so far; a throw is final. */
  function Apply(acc: Option<seq<Prop>>, step: FieldStep): Option<seq<Prop>> {
    match acc
    case None => None
    case Some(fields) =>
      match step
      case Fault => None
      case Skip => Some(fields)
      case Write(k, v) => Some(Assign(fields, k, v))
  }

  /** The steps applied in order to an empty dictionary. */
  function Run(steps: seq<FieldStep>): Option<seq<Prop>>
    decreases |steps|
  {
    if steps == [] then Some([]) else Apply(Run(steps[..|steps| - 1]), steps[|steps| - 1])
  }

  /** The dictionary after the forEach over `items`; None when an element throws. */
  function Folded(items: seq<Value>, host: Host): Option<seq<Prop>> {
    Run(StepsOf(items, host))
  }

  /** Running one more step. */
  lemma RunSnoc(steps: seq<FieldStep>, i: nat)
    requires i < |steps|
    ensures Run(steps[..i + 1]) == Apply(Run(steps[..i]), steps[i])
  {
    assert steps[..i + 1][..i] == steps[..i];
  }

  /** Once a step throws, the remaining steps do not matter. */
  lemma {:induction false} FaultPersists(steps: seq<FieldStep>, i: nat)
    requires i <= |steps| && Run(steps[..i]).None?
    ensures Run(steps).None?
    decreases |steps| - i
  {
    if i < |steps| {
      RunSnoc(steps, i);
      FaultPersists(steps, i + 1);
    } else {
      assert steps[..i] == steps;
    }
  }

  /** The forEach over a `fields` array, writing into a fresh dictionary. */
  method FoldFields(items: seq<Value>, host: Host) returns (fields: Option<seq<Prop>>)
    ensures fields == Folded(items, host)
  {
    ghost var steps := StepsOf(items, host);
    var acc: seq<Prop> := [];
    var i := 0;
    while i < |items|
      invariant i <= |items|
      invariant Run(steps[..i]) == Some(acc)
    {
      var f := items[i];
      RunSnoc(steps, i);
      if Nullish(f) {
        FaultPersists(steps, i + 1);
        return None;
      }
      if Truthy(Get(f, "field")) {
        acc := Assign(acc, ToStr(Get(f, "field"), host), Get(f, "expected"));
      }
      i := i + 1;
    }
    assert steps[..i] == steps;
    return Some(acc);
  }

  /** A run throws exactly when one of its steps does. */
  lemma {:induction false} RunFaults(steps: seq<FieldStep>)
    ensures Run(steps).None? <==> Fault in steps
    decreases |steps|
  {
    if steps != [] {
      var n := |steps| - 1;
      RunFaults(steps[..n]);
      assert steps == steps[..n] + [steps[n]];
    }
  }

  /** The fold throws exactly when some element is null or undefined. */
  lemma FoldFaultsOnNullish(items: seq<Value>, host: Host)
    ensures Folded(items, host).None? <==> exists j :: 0 <= j < |items| && Nullish(items[j])
  {
    var steps := StepsOf(items, host);
    RunFaults(steps);
    if Fault in steps {
      var j :| 0 <= j < |steps| && steps[j] == Fault;
      assert Nullish(items[j]);
    }
  }

  /** Step j writes `key`. */
  predicate WritesKey(steps: seq<FieldStep>, j: int, key: string)
    requires 0 <= j < |steps|
  {
    steps[j].Write? && steps[j].key == key
  }

  /** A key that no step writes is absent. */
  lemma {:induction false} UnwrittenKeyAbsent(steps: seq<FieldStep>, key: string)
    requires Run(steps).Some?
    requires forall j :: 0 <= j < |steps| ==> !WritesKey(steps, j, key)
    ensures Find(Run(steps).value, key).None?
    decreases |steps|
  {
    if steps != [] {
      var n := |steps| - 1;
      var init := steps[..n];
      assert !WritesKey(steps, n, key);
      forall l | 0 <= l < n ensures !WritesKey(init, l, key) {
        assert init[l] == steps[l] && !WritesKey(steps, l, key);
      }
      UnwrittenKeyAbsent(init, key);
    }
  }

  /** A key holds the value of the last step that writes it: later writes overwrite earlier ones. */
  lemma {:induction false} LastWriteWins(steps: seq<FieldStep>, key: string, j: nat)
    requires Run(steps).Some?
    requires j < |steps| && WritesKey(steps, j, key)
    requires forall l :: j < l < |steps| ==> !WritesKey(steps, l, key)
    ensures Find(Run(steps).value, key) == Some(steps[j].val)
    decreases |steps|
  {
    var n := |steps| - 1;
    var init := steps[..n];
    if j < n {
      assert !WritesKey(steps, n, key);
      assert init[j] == steps[j];
      forall l | j < l < n ensures !WritesKey(init, l, key) {
        assert init[l] == steps[l] && !WritesKey(steps, l, key);
      }
      LastWriteWins(init, key, j);
    }
  }

  /**
   * The folded dictionary holds, under each key, the `expected` of the last element whose truthy
   * `field` converts to that key, and no other key.
   */
  lemma FoldedFields(items: seq<Value>, host: Host, key: string)
    requires Folded(items, host).Some?
    ensures (forall j :: 0 <= j < |items| ==> !WritesKey(StepsOf(items, host), j, key)) ==>
      Find(Folded(items, host).value, key).None?
    ensures forall j ::
              (&& 0 <= j < |items|
               && WritesKey(StepsOf(items, host), j, key)
               && (forall l :: j < l < |items| ==> !WritesKey(StepsOf(items, host), l, key)))
              ==> Find(Folded(items, host).value, key) == Some(Get(items[j], "expected"))
  {
    var steps := StepsOf(items, host);
    if forall j :: 0 <= j < |items| ==> !WritesKey(steps, j, key) {
      UnwrittenKeyAbsent(steps, key);
    }
    forall j | 0 <= j < |items| && WritesKey(steps, j, key) && (forall l :: j < l < |items| ==> !WritesKey(steps, l, key))
      ensures Find(Folded(items, host).value, key) == Some(Get(items[j], "expected"))
    {
      LastWriteWins(steps, key, j);
    }
  }

  /** The folded dictionary never repeats a key. */
  lemma {:induction false} RunDistinct(steps: seq<FieldStep>)
    requires Run(steps).Some?
    ensures DistinctKeys(Run(steps).value)
    decreases |steps|
  {
    if steps != [] {
      var init := steps[..|steps| - 1];
      RunDistinct(init);
      var step := steps[|steps| - 1];
      if step.Write? {
        AssignDistinct(Run(init).value, step.key, step.val);
      }
    }
  }

  /** What the fields stage can leave in `fields`: an object, or null passed through. */
  predicate IsFieldsValue(v: Value) {
    v.Obj? || v.Null?
  }

  /**
   * The `fields` stage: an array is folded into a fresh dictionary, an object or null
   * (`typeof null === 'object'`) is kept as it is, anything else gives `{}`. None when the fold
   * throws.
   */
  function ShapedFields(raw: Value, host: Host): (r: Option<Value>)
    ensures r.Some? ==> IsFieldsValue(r.value)
    ensures r.None? <==> raw.Arr? && exists j :: 0 <= j < |raw.items| && Nullish(raw.items[j])
    ensures IsFieldsValue(raw) ==> r == Some(raw)
    ensures !raw.Arr? && !IsFieldsValue(raw) ==> r == Some(Obj([]))
    ensures raw.Arr? ==> r == (match Folded(raw.items, host) case Some(d) => Some(Obj(d)) case None => None)
  {
    match raw
    case Arr(items) =>
      FoldFaultsOnNullish(items, host);
      if Folded(items, host).Some? then Some(Obj(Folded(items, host).value)) else None
    case Obj(_) => Some(raw)
    case Null => Some(raw)
    case _ => Some(Obj([]))
  }

  // ---------------------------------------------------------------------------------------------
  // validation

  /**
   * One element of a `validation` array: `status` and `comment` default when falsy, `expected`
   * falls back to `fields[v.field]` only when null or undefined. None when the element is null
   * or undefined, or when the fallback reads a member of a null `fields`.
   */
  function ShapedEntry(v: Value, fields: Value, host: Host): (r: Option<Entry>)
    requires IsFieldsValue(fields)
    ensures r.None? <==> Nullish(v) || (Nullish(Get(v, "expected")) && fields.Null?)
    ensures r.Some? ==>
      && r.value.field == Get(v, "field")
      && Truthy(r.value.status)
      && (Truthy(Get(v, "status")) ==> r.value.status == Get(v, "status"))
      && !Nullish(r.value.comment)
      && (Truthy(Get(v, "comment")) ==> r.value.comment == Get(v, "comment"))
      && (!Nullish(Get(v, "expected")) ==> r.value.expected == Get(v, "expected"))
    ensures r.Some? ==>
      && (!Truthy(Get(v, "status")) ==> r.value.status == Str("FAIL"))
      && (!Truthy(Get(v, "comment")) ==> r.value.comment == Str(""))
      && (Nullish(Get(v, "expected")) ==> r.value.expected == LookupOr(fields.props, ToStr(Get(v, "field"), host)))
  {
    if Nullish(v) || (Nullish(Get(v, "expected")) && fields.Null?) then None
    else Some(Defaulted(v, fields, host))
  }

  /** The entry built from an element that does not throw. */
  function Defaulted(v: Value, fields: Value, host: Host): Entry
    requires IsFieldsValue(fields) && !Nullish(v)
    requires !(Nullish(Get(v, "expected")) && fields.Null?)
  {
    var field, status, expected, comment := Get(v, "field"), Get(v, "status"), Get(v, "expected"), Get(v, "comment");
    Entry(
      field,
      if Truthy(status) then status else Str("FAIL"),
      if !Nullish(expected) then expected else LookupOr(fields.props, ToStr(field, host)),
      if Truthy(comment) then comment else Str(""))
  }

  /**
   * `validation.map(...)`: one entry per element, in order; None when any element throws (which
   * element throws first does not matter, every throw ends the same way).
   */
  function ShapedEntries(items: seq<Value>, fields: Value, host: Host): (r: Option<seq<Entry>>)
    requires IsFieldsValue(fields)
    ensures r.None? <==> exists i :: 0 <= i < |items| && ShapedEntry(items[i], fields, host).None?
    ensures r.Some? ==>
      && |r.value| == |items|
      && forall i :: 0 <= i < |items| ==> ShapedEntry(items[i], fields, host) == Some(r.value[i])
  {
    if exists i :: 0 <= i < |items| && ShapedEntry(items[i], fields, host).None? then None
    else Some(seq(|items|, i requires 0 <= i < |items| => ShapedEntry(items[i], fields, host).value))
  }

  /** Every mapped entry has a truthy status. */
  lemma EntriesTruthy(items: seq<Value>, fields: Value, host: Host)
    requires IsFieldsValue(fields)
    ensures var r := ShapedEntries(items, fields, host);
      r.Some? ==> forall e :: e in r.value ==> Truthy(e.status)
  {
    var r := ShapedEntries(items, fields, host);
    if r.Some? {
      forall i | 0 <= i < |r.value| ensures Truthy(r.value[i].status) {
        assert ShapedEntry(items[i], fields, host) == Some(r.value[i]);
      }
    }
  }

  /** The auto-pass entries for the given keys of `fields`. */
  function PassEntries(props: seq<Prop>, keys: seq<string>): (r: seq<Entry>)
    ensures |r| == |keys|
    ensures forall i :: 0 <= i < |keys| ==>
      r[i] == Entry(Str(keys[i]), Str("PASS"), LookupOr(props, keys[i]), Str(AutoPassComment))
  {
    if keys == [] then []
    else [Entry(Str(keys[0]), Str("PASS"), LookupOr(props, keys[0]), Str(AutoPassComment))] + PassEntries(props, keys[1..])
  }

  /** `Object.keys(fields).map(...)`: throws on a null `fields`. */
  function AutoPass(fields: Value): (r: Option<seq<Entry>>)
    requires IsFieldsValue(fields)
    ensures r.None? <==> fields.Null?
    ensures r.Some? ==> |r.value| == |fields.props|
  {
    if fields.Null? then None else Some(PassEntries(fields.props, Keys(fields.props)))
  }

  /**
   * In an object with distinct names, auto-pass gives one PASS entry per property, in property
   * order, expecting the property's own value.
   */
  lemma AutoPassEntries(props: seq<Prop>, i: nat)
    requires DistinctKeys(props) && i < |props|
    ensures AutoPass(Obj(props)).Some?
    ensures AutoPass(Obj(props)).value[i]
      == Entry(Str(props[i].key), Str("PASS"), props[i].val, Str(AutoPassComment))
  {
    FindDistinct(props, i);
  }

  /**
   * The `validation` stage: an array is mapped entry by entry, `true` or `"valid"` auto-passes
   * every field, anything else gives no entries.
   */
  function ShapedValidation(raw: Value, fields: Value, host: Host): (r: Option<seq<Entry>>)
    requires IsFieldsValue(fields)
    ensures r.Some? ==> forall e :: e in r.value ==> Truthy(e.status)
    ensures raw.Arr? ==> r == ShapedEntries(raw.items, fields, host)
    ensures raw == Str("valid") || raw == Bool(true) ==> r == AutoPass(fields)
    ensures !raw.Arr? && raw != Str("valid") && raw != Bool(true) ==> r == Some([])
  {
    if raw.Arr? then
      EntriesTruthy(raw.items, fields, host);
      ShapedEntries(raw.items, fields, host)
    else if raw == Str("valid") || raw == Bool(true) then
      PassTruthy(fields);
      AutoPass(fields)
    else Some([])
  }

  /** Every auto-pass entry has the truthy status PASS. */
  lemma PassTruthy(fields: Value)
    requires IsFieldsValue(fields)
    ensures AutoPass(fields).Some? ==> forall e :: e in AutoPass(fields).value ==> Truthy(e.status)
  {
    if fields.Obj? {
      var r := AutoPass(fields).value;
      forall e | e in r ensures Truthy(e.status) {
        var i :| 0 <= i < |r| && r[i] == e;
      }
    }
  }

  // ---------------------------------------------------------------------------------------------
  // confidence

  /** `o > 1 ? o / 100 : o`: both operators convert o to a number; NaN compares false. */
  function Scaled(o: Value, host: Host): Value {
    match ToNumber(o, host)
    case Some(x) => if x > 1.0 then Num(x / 100.0) else o
    case None => o
  }

  /** The lower-cased labels the service understands. */
  function LabelValue(name: string): real {
    if name == "high" then 0.9
    else if name == "medium" then 0.6
    else if name == "low" then 0.3
    else 0.0
  }

  /** `confidence` before the fallback: 0 unless one of the three recognised shapes applies. */
  function RawConfidence(c: Value, host: Host): (r: Value)
    ensures !Nullish(r)
  {
    if Nullish(c) then Num(0.0)
    else if c.Num? then Scaled(c, host)
    else if (c.Obj? || c.Arr?) && !Nullish(Get(c, "overall")) then Scaled(Get(c, "overall"), host)
    else if c.Str? then Num(LabelValue(Strings.Lower(c.s)))
    else Num(0.0)
  }

  /** `confidence` after `if (confidence === 0) confidence = 0.5`. */
  function NormalizedConfidence(c: Value, host: Host): (r: Value)
    ensures !Nullish(r) && r != Num(0.0)
  {
    var raw := RawConfidence(c, host);
    if raw == Num(0.0) then Num(FallbackConfidence) else raw
  }

  // ---------------------------------------------------------------------------------------------
  // The whole reply

  /** What every successful result satisfies, and what the report stage relies on. */
  predicate WellShaped(ai: AiResult) {
    && IsFieldsValue(ai.fields)
    && (forall e :: e in ai.validation ==> Truthy(e.status))
    && !Nullish(ai.confidence)
    && ai.confidence != Num(0.0)
  }

  /**
   * The three stages applied to the parsed reply; a throw in any of them, `parsed.fields` on
   * null or undefined included, becomes ServiceUnavailable.
   */
  function ShapedParsed(parsed: Value, host: Host): (r: Result<AiResult>)
    ensures r.Failure? ==> r.error == ServiceUnavailable(UnavailableMessage)
    ensures r.Success? ==> WellShaped(r.value)
  {
    if Nullish(parsed) then Failure(ServiceUnavailable(UnavailableMessage))
    else
      match ShapedFields(Get(parsed, "fields"), host)
      case None => Failure(ServiceUnavailable(UnavailableMessage))
      case Some(fields) =>
        match ShapedValidation(Get(parsed, "validation"), fields, host)
        case None => Failure(ServiceUnavailable(UnavailableMessage))
        case Some(validation) =>
          Success(AiResult(fields, validation, NormalizedConfidence(Get(parsed, "confidence"), host)))
  }

  /**
   * The body of validateDesign after the call: any throw inside the try block, the call's own
   * included, becomes ServiceUnavailable.
   */
  function ShapedReply(completion: Completion, host: Host): (r: Result<AiResult>)
    ensures r.Failure? ==> r.error == ServiceUnavailable(UnavailableMessage)
    ensures r.Success? ==> WellShaped(r.value)
    ensures completion.CallFailed? ==> r.Failure?
  {
    if completion.CallFailed? then Failure(ServiceUnavailable(UnavailableMessage))
    else ShapedParsed(ParsedReply(completion.content, host), host)
  }

  /**
   * AiService.validateDesign as the design service calls it. The prompt is built before the
   * `try`, so a design whose conversion to text throws ends the request with the 500 NestJS sends
   * for an unhandled error. Otherwise the model's answer to the prompt is shaped.
   */
  function AskModel(input: seq<Prop>, oracle: string -> Completion, host: Host): (r: Result<AiResult>)
    ensures "toString" in Keys(input) ==> r == Failure(InternalServerError(InternalErrorMessage))
    ensures "toString" !in Keys(input) ==> r == ShapedReply(oracle(ObjectText), host)
  {
    match PromptInput(input)
    case None => Failure(InternalServerError(InternalErrorMessage))
    case Some(text) => ShapedReply(oracle(text), host)
  }

  /** The `fields` stage as written: `let fields = {}`, replaced by the fold or by the reply's own object. */
  method ShapeFields(rawFields: Value, host: Host) returns (fields: Option<Value>)
    ensures fields == ShapedFields(rawFields, host)
  {
    fields := Some(Obj([]));
    if rawFields.Arr? {
      var folded := FoldFields(rawFields.items, host);
      if folded.None? {
        return None;
      }
      fields := Some(Obj(folded.value));
    } else if rawFields.Obj? || rawFields.Null? {
      fields := Some(rawFields);
    }
  }

  /** The `validation` stage as written: `let validation = []`, replaced by the mapped array or the auto-pass entries. */
  method ShapeValidation(rawValidation: Value, fields: Value, host: Host) returns (validation: Option<seq<Entry>>)
    requires IsFieldsValue(fields)
    ensures validation == ShapedValidation(rawValidation, fields, host)
  {
    validation := Some([]);
    if rawValidation.Arr? {
      validation := ShapedEntries(rawValidation.items, fields, host);
    } else if rawValidation == Str("valid") || rawValidation == Bool(true) {
      if fields.Null? {
        return None;
      }
      validation := Some(PassEntries(fields.props, Keys(fields.props)));
    }
  }

  /** The confidence stage as written: `let confidence = 0`, reassigned by the recognised shapes, then the fallback. */
  method ShapeConfidence(c: Value, host: Host) returns (confidence: Value)
    ensures confidence == NormalizedConfidence(c, host)
  {
    confidence := Num(0.0);
    if !Nullish(c) {
      if c.Num? {
        confidence := Scaled(c, host);
      } else if (c.Obj? || c.Arr?) && !Nullish(Get(c, "overall")) {
        confidence := Scaled(Get(c, "overall"), host);
      } else if c.Str? {
        var val := Strings.Lower(c.s);
        if val == "high" {
          confidence := Num(0.9);
        } else if val == "medium" {
          confidence := Num(0.6);
        } else if val == "low" {
          confidence := Num(0.3);
        }
      }
    }
    if confidence == Num(0.0) {
      confidence := Num(FallbackConfidence);
    }
  }

  /** AiService.validateDesign from the completion on. */
  method ShapeReply(completion: Completion, host: Host) returns (r: Result<AiResult>)
    ensures r == ShapedReply(completion, host)
  {
    if completion.CallFailed? {
      return Failure(ServiceUnavailable(UnavailableMessage));
    }
    var aiContent := Strings.Trim(StripFences(completion.content.GetOr("")));
    var parsed := Obj([]);
    match host.parse(aiContent) {
      case Some(v) => parsed := v;
      case None =>
    }
    if Nullish(parsed) {
      return Failure(ServiceUnavailable(UnavailableMessage));
    }
    var fields := ShapeFields(Get(parsed, "fields"), host);
    if fields.None? {
      return Failure(ServiceUnavailable(UnavailableMessage));
    }
    var validation := ShapeValidation(Get(parsed, "validation"), fields.value, host);
    if validation.None? {
      return Failure(ServiceUnavailable(UnavailableMessage));
    }
    var confidence := ShapeConfidence(Get(parsed, "confidence"), host);
    return Success(AiResult(fields.value, validation.value, confidence));
  }

  // ---------------------------------------------------------------------------------------------
  // Properties of the shaped reply

  /** A reply JSON.parse rejects is not an error: it shapes to `{}`, no entries and confidence 0.5. */
  lemma UnparseableReplyDegrades(content: Option<string>, host: Host)
    requires host.parse(ParserInput(content)) == None
    ensures ShapedReply(Replied(content), host) == Success(AiResult(Obj([]), [], Num(FallbackConfidence)))
  {
    assert ParsedReply(content, host) == Obj([]);
    EmptyObjectShapes(host);
  }

  /** The `{}` fallback has no fields, no entries and confidence 0.5. */
  lemma EmptyObjectShapes(host: Host)
    ensures ShapedParsed(Obj([]), host) == Success(AiResult(Obj([]), [], Num(FallbackConfidence)))
  {
    assert Get(Obj([]), "fields") == Undefined && Get(Obj([]), "validation") == Undefined;
    assert ShapedFields(Undefined, host) == Some(Obj([]));
    assert ShapedValidation(Undefined, Obj([]), host) == Some([]);
    assert RawConfidence(Get(Obj([]), "confidence"), host) == Num(0.0);
  }

  /** A reply that parses to null makes `parsed.fields` throw: ServiceUnavailable. */
  lemma NullReplyIsUnavailable(content: Option<string>, host: Host)
    requires host.parse(ParserInput(content)) == Some(Null)
    ensures ShapedReply(Replied(content), host) == Failure(ServiceUnavailable(UnavailableMessage))
  {
  }

  /** A successful reply is the three shaped stages of the parsed object. */
  lemma ShapedStages(completion: Completion, host: Host)
    requires completion.Replied?
    requires ShapedReply(completion, host).Success?
    ensures var parsed := ParsedReply(completion.content, host);
      var ai := ShapedReply(completion, host).value;
      && ShapedFields(Get(parsed, "fields"), host) == Some(ai.fields)
      && ShapedValidation(Get(parsed, "validation"), ai.fields, host) == Some(ai.validation)
      && ai.confidence == NormalizedConfidence(Get(parsed, "confidence"), host)
  {
    ParsedStages(ParsedReply(completion.content, host), host);
  }

  /** The stages of a parsed value that shapes without a throw. */
  lemma ParsedStages(parsed: Value, host: Host)
    requires ShapedParsed(parsed, host).Success?
    ensures !Nullish(parsed)
    ensures var ai := ShapedParsed(parsed, host).value;
      && ShapedFields(Get(parsed, "fields"), host) == Some(ai.fields)
      && ShapedValidation(Get(parsed, "validation"), ai.fields, host) == Some(ai.validation)
      && ai.confidence == NormalizedConfidence(Get(parsed, "confidence"), host)
  {
  }

  /**
   * A reply the model gave fails exactly when it parses to null or undefined, when its `fields`
   * array throws, or when its `validation` throws against the shaped `fields`.
   */
  lemma ShapedReplyFails(content: Option<string>, host: Host)
    ensures var parsed := ParsedReply(content, host);
      ShapedReply(Replied(content), host).Failure? <==>
        || Nullish(parsed)
        || ShapedFields(Get(parsed, "fields"), host).None?
        || ShapedValidation(Get(parsed, "validation"), ShapedFields(Get(parsed, "fields"), host).value, host).None?
  {
  }

  /** A null or undefined element of a `validation` array makes `v.status` throw: ServiceUnavailable. */
  lemma NullishEntryIsUnavailable(content: Option<string>, host: Host, items: seq<Value>, j: nat)
    requires !Nullish(ParsedReply(content, host))
    requires Get(ParsedReply(content, host), "validation") == Arr(items)
    requires j < |items| && Nullish(items[j])
    ensures ShapedReply(Replied(content), host) == Failure(ServiceUnavailable(UnavailableMessage))
  {
    var parsed := ParsedReply(content, host);
    var fields := ShapedFields(Get(parsed, "fields"), host);
    if fields.Some? {
      assert ShapedEntry(items[j], fields.value, host).None?;
    }
  }

  /** `validation: true` or `"valid"` next to `fields: null` makes `Object.keys(null)` throw. */
  lemma AutoPassOnNullFieldsIsUnavailable(content: Option<string>, host: Host)
    requires !Nullish(ParsedReply(content, host))
    requires Get(ParsedReply(content, host), "fields") == Null
    requires var raw := Get(ParsedReply(content, host), "validation"); raw == Bool(true) || raw == Str("valid")
    ensures ShapedReply(Replied(content), host) == Failure(ServiceUnavailable(UnavailableMessage))
  {
  }

  /** A `validation` array is mapped entry by entry: same length, same order. */
  lemma ValidationFollowsArray(completion: Completion, host: Host, items: seq<Value>)
    requires completion.Replied?
    requires ShapedReply(completion, host).Success?
    requires Get(ParsedReply(completion.content, host), "validation") == Arr(items)
    ensures var ai := ShapedReply(completion, host).value;
      && |ai.validation| == |items|
      && forall i :: 0 <= i < |items| ==> ShapedEntry(items[i], ai.fields, host) == Some(ai.validation[i])
  {
    ShapedStages(completion, host);
  }

  /** A `fields` array becomes the dictionary its forEach leaves. */
  lemma FieldsFollowArray(completion: Completion, host: Host, items: seq<Value>)
    requires completion.Replied?
    requires ShapedReply(completion, host).Success?
    requires Get(ParsedReply(completion.content, host), "fields") == Arr(items)
    ensures Folded(items, host).Some?
    ensures ShapedReply(completion, host).value.fields == Obj(Folded(items, host).value)
  {
    ShapedStages(completion, host);
  }

  /** `validation: true` or `"valid"` auto-passes every field of a `fields` object, in key order. */
  lemma AutoPassCoversFields(completion: Completion, host: Host, i: nat)
    requires completion.Replied?
    requires ShapedReply(completion, host).Success?
    requires var raw := Get(ParsedReply(completion.content, host), "validation"); raw == Bool(true) || raw == Str("valid")
    ensures var ai := ShapedReply(completion, host).value;
      && ai.fields.Obj?
      && |ai.validation| == |ai.fields.props|
      && (i < |ai.fields.props| ==>
            var key := ai.fields.props[i].key;
            ai.validation[i] == Entry(Str(key), Str("PASS"), LookupOr(ai.fields.props, key), Str(AutoPassComment)))
  {
    ShapedStages(completion, host);
  }

  /** A number above 1 is read as a percentage. */
  lemma PercentIsScaled(n: real, host: Host)
    requires n > 1.0
    ensures NormalizedConfidence(Num(n), host) == Num(n / 100.0)
  {
  }

  /** Nothing is clamped: 250 becomes 2.5, and a negative number is kept as it is. */
  lemma ConfidenceNotClamped(n: real, host: Host)
    requires n < 0.0
    ensures NormalizedConfidence(Num(250.0), host) == Num(2.5)
    ensures NormalizedConfidence(Num(n), host) == Num(n)
  {
  }

  /** A number in (0, 1] is kept; 0, and a missing confidence, become 0.5. */
  lemma FractionKept(n: real, host: Host)
    requires 0.0 < n <= 1.0
    ensures NormalizedConfidence(Num(n), host) == Num(n)
    ensures NormalizedConfidence(Num(0.0), host) == Num(FallbackConfidence)
    ensures NormalizedConfidence(Undefined, host) == Num(FallbackConfidence)
  {
  }

  /** `{overall: n}` follows the same rule as the bare number n. */
  lemma OverallLikeNumber(props: seq<Prop>, n: real, host: Host)
    requires Find(props, "overall") == Some(Num(n))
    ensures NormalizedConfidence(Obj(props), host) == NormalizedConfidence(Num(n), host)
  {
  }

  /** An `overall` that does not convert to a number is passed on as it is, even a string. */
  lemma NonNumericOverallKept(props: seq<Prop>, s: string, host: Host)
    requires Find(props, "overall") == Some(Str(s))
    requires host.stringToNumber(s) == None
    ensures NormalizedConfidence(Obj(props), host) == Str(s)
  {
  }

  /** The labels are read case-insensitively. */
  lemma LabelsIgnoreCase(s: string, host: Host)
    ensures Strings.Lower(s) == "high" ==> NormalizedConfidence(Str(s), host) == Num(0.9)
    ensures Strings.Lower(s) == "medium" ==> NormalizedConfidence(Str(s), host) == Num(0.6)
    ensures Strings.Lower(s) == "low" ==> NormalizedConfidence(Str(s), host) == Num(0.3)
    ensures Strings.Lower(s) !in {"high", "medium", "low"} ==> NormalizedConfidence(Str(s), host) == Num(FallbackConfidence)
  {
  }

  /** A boolean, or an object or array without `overall`, falls back to 0.5. */
  lemma OtherShapesFallBack(c: Value, host: Host)
    requires c.Bool? || ((c.Obj? || c.Arr?) && Nullish(Get(c, "overall")))
    ensures NormalizedConfidence(c, host) == Num(FallbackConfidence)
  {
  }
}

=== FILE: design_normalizer.dfy ===
/** DesignNormalizer: resolves the one populated input channel into a tagged payload. */
module DesignNormalizer {
  import opened Results
  import opened JsValues
  import opened DesignTypes
  import TextExtraction

  const NotFoundMessage := "Design ID not found"

  /**
   * The stored designs as `findOne({designId})` sees them: each design id maps to the stored
   * record, whose own properties include `_id` and `designId` as well as the timestamps.
   */
  type Database = map<string, seq<Prop>>

  /** The two names the DB branch drops. */
  predicate IsIdentityKey(key: string) {
    key == "_id" || key == "designId"
  }

  /**
   * `const { _id, designId, ...rest } = design`: the record without its identity properties, every
   * other property kept with its value and in its order.
   */
  function WithoutIdentity(record: seq<Prop>): (rest: seq<Prop>)
    ensures forall p :: p in rest <==> p in record && !IsIdentityKey(p.key)
    ensures forall k :: Find(rest, k) == if IsIdentityKey(k) then None else Find(record, k)
  {
    if record == [] then []
    else if IsIdentityKey(record[0].key) then WithoutIdentity(record[1..])
    else [record[0]] + WithoutIdentity(record[1..])
  }

  /**
   * DesignNormalizer.normalize: a non-empty designId goes to the database, otherwise a
   * structuredInput object is passed through, otherwise the free text goes to the extractor.
   */
  function Normalize(dto: ValidateDesignDto, db: Database): (r: Result<Normalized>)
    ensures r.Success? ==> (r.value.source == DB <==> HasText(dto.designId))
    ensures r.Success? ==> (r.value.source == STRUCTURED <==> !HasText(dto.designId) && dto.structuredInput.Some?)
    ensures r.Success? ==> (r.value.source == TEXT <==> !HasText(dto.designId) && dto.structuredInput.None?)
    ensures r.Failure? <==>
      || (HasText(dto.designId) && dto.designId.value !in db)
      || (!HasText(dto.designId) && dto.structuredInput.None? && dto.freeText.None?)
  {
    if HasText(dto.designId) then
      var id := dto.designId.value;
      if id !in db then Failure(NotFound(NotFoundMessage))
      else Success(Normalized(DB, WithoutIdentity(db[id])))
    else if dto.structuredInput.Some? then Success(Normalized(STRUCTURED, dto.structuredInput.value))
    else
      match TextExtraction.Extraction(dto.freeText)
      case Success(fields) => Success(Normalized(TEXT, fields))
      case Failure(e) => Failure(e)
  }

  /** A design id wins over the other channels; an unknown id is NotFound and yields no payload. */
  lemma DesignIdWins(dto: ValidateDesignDto, db: Database)
    requires HasText(dto.designId)
    ensures dto.designId.value !in db ==> Normalize(dto, db) == Failure(NotFound(NotFoundMessage))
    ensures dto.designId.value in db ==>
      Normalize(dto, db) == Success(Normalized(DB, WithoutIdentity(db[dto.designId.value])))
  {
  }

  /**
   * The DB payload is the stored record minus `_id` and `designId`: every other property, the
   * timestamps included, keeps its value.
   */
  lemma StoredRecordStripped(dto: ValidateDesignDto, db: Database, key: string)
    requires HasText(dto.designId) && dto.designId.value in db
    ensures Normalize(dto, db).Success?
    ensures Find(Normalize(dto, db).value.payload, key)
      == if IsIdentityKey(key) then None else Find(db[dto.designId.value], key)
  {
  }

  /** Without a design id, a structured object is passed through untouched, even next to free text. */
  lemma StructuredPassThrough(dto: ValidateDesignDto, db: Database)
    requires !HasText(dto.designId) && dto.structuredInput.Some?
    ensures Normalize(dto, db) == Success(Normalized(STRUCTURED, dto.structuredInput.value))
  {
  }

  /** Otherwise the payload is exactly what the extractor makes of the free text. */
  lemma TextPayloadIsExtracted(dto: ValidateDesignDto, db: Database)
    requires !HasText(dto.designId) && dto.structuredInput.None? && dto.freeText.Some?
    ensures Normalize(dto, db) == Success(Normalized(TEXT, TextExtraction.ExtractedFields(dto.freeText.value)))
  {
  }

  /** A missing free text makes the extractor throw, which it reports as BadGateway. */
  lemma MissingTextIsBadGateway(dto: ValidateDesignDto, db: Database)
    requires !HasText(dto.designId) && dto.structuredInput.None? && dto.freeText.None?
    ensures Normalize(dto, db) == Failure(BadGateway(TextExtraction.ExtractionFailedMessage))
  {
  }
}

=== FILE: design_service.dfy ===
/** DesignService.validateDesign: the pipeline from request body to report. */
module DesignService {
  import opened Results
  import opened JsValues
  import opened DesignTypes
  import InputTypeValidator
  import DesignNormalizer
  import opened AiService

  const InvalidAiResponseMessage := "Invalid AI response"

  datatype Verdict = PASS | FAIL

  /** One line of `results`: an AI entry joined with the value provided for its field. */
  datatype Row = Row(field: Value, provided: Value, expected: Value, status: Value, comment: Value)

  /** The response body. */
  datatype Report = Report(
    inputSource: Source,
    fields: Value,
    results: seq<Row>,
    overallStatus: Verdict,
    confidence: Value)

  /** A validation entry as the object the AI service returns. */
  function EntryValue(e: Entry): Value {
    Obj([Prop("field", e.field), Prop("status", e.status), Prop("expected", e.expected), Prop("comment", e.comment)])
  }

  /** The AI service's result as the object it returns: `{fields, validation, confidence: {overall}}`. */
  function AsValue(ai: AiResult): Value {
    Obj([
      Prop("fields", ai.fields),
      Prop("validation", Arr(seq(|ai.validation|, i requires 0 <= i < |ai.validation| => EntryValue(ai.validation[i])))),
      Prop("confidence", Obj([Prop("overall", ai.confidence)]))])
  }

  /** The guard lets the response through: it is an object whose `validation` is a truthy array. */
  predicate GuardPasses(response: Value) {
    !Nullish(response) && Truthy(Get(response, "validation")) && Get(response, "validation").Arr?
  }

  /** Whatever the AI service returns passes the guard, so the BadGateway branch is dead code. */
  lemma ServiceOutputPassesGuard(ai: AiResult)
    ensures GuardPasses(AsValue(ai))
  {
    var props := AsValue(ai).props;
    assert props[0].key == "fields" && props[1].key == "validation";
    assert Find(props, "validation") == Find(props[1..], "validation");
  }

  /** `aiResponse.fields?.[v.field]`: the provided value, undefined when `fields` is null. */
  function Provided(fields: Value, field: Value, host: Host): Value
    requires IsFieldsValue(fields)
  {
    if fields.Obj? then LookupOr(fields.props, ToStr(field, host)) else Undefined
  }

  /** `validation.map(v => ({...}))`: one row per entry, in order. */
  function Rows(validation: seq<Entry>, fields: Value, host: Host): (rows: seq<Row>)
    requires IsFieldsValue(fields)
    ensures |rows| == |validation|
    ensures forall i :: 0 <= i < |validation| ==>
      && rows[i].field == validation[i].field
      && rows[i].provided == Provided(fields, validation[i].field, host)
      && rows[i].expected == validation[i].expected
      && rows[i].status == validation[i].status
      && rows[i].comment == validation[i].comment
  {
    if validation == [] then []
    else
      var e := validation[0];
      [Row(e.field, Provided(fields, e.field, host), e.expected, e.status, e.comment)]
        + Rows(validation[1..], fields, host)
  }

  /** `validation.every(v => v.status === 'PASS')`. */
  function AllPass(validation: seq<Entry>): (r: bool)
    ensures r <==> forall i :: 0 <= i < |validation| ==> validation[i].status == Str("PASS")
  {
    if validation == [] then true
    else validation[0].status == Str("PASS") && AllPass(validation[1..])
  }

  /** The response object built once the guard has passed. */
  function BuildReport(source: Source, ai: AiResult, host: Host): (report: Report)
    requires IsFieldsValue(ai.fields)
    ensures report.inputSource == source && report.fields == ai.fields
    ensures report.results == Rows(ai.validation, ai.fields, host)
    ensures |report.results| == |ai.validation|
    ensures report.overallStatus == PASS <==> forall e :: e in ai.validation ==> e.status == Str("PASS")
    ensures report.confidence == if Nullish(ai.confidence) then Num(0.0) else ai.confidence
  {
    Report(
      source,
      ai.fields,
      Rows(ai.validation, ai.fields, host),
      if AllPass(ai.validation) then PASS else FAIL,
      if Nullish(ai.confidence) then Num(0.0) else ai.confidence)
  }

  /** The end of the pipeline: the guard on the AI service's result, then the report. */
  function Assemble(source: Source, ai: AiResult, host: Host): Result<Report>
    requires IsFieldsValue(ai.fields)
  {
    if !GuardPasses(AsValue(ai)) then Failure(BadGateway(InvalidAiResponseMessage))
    else Success(BuildReport(source, ai, host))
  }

  /**
   * DesignService.validateDesign: the single-input check, normalisation, the AI call, and the
   * report, each stage running only when the one before it succeeded. `oracle` stands for the
   * chat completion this request receives for the prompt built around a text. The completion is
   * sampled, so two requests may receive different ones: each call of ValidateDesign is one
   * request with its own `oracle`.
   */
  function ValidateDesign(
    dto: ValidateDesignDto, db: DesignNormalizer.Database, oracle: string -> Completion, host: Host
  ): (r: Result<Report>)
    ensures r.Success? ==> InputTypeValidator.ValidateSingleInput(dto).Pass?
    ensures r.Success? ==> DesignNormalizer.Normalize(dto, db).Success?
    ensures r.Success? ==> r.value.inputSource == DesignNormalizer.Normalize(dto, db).value.source
  {
    match InputTypeValidator.ValidateSingleInput(dto)
    case Fail(e) => Failure(e)
    case Pass =>
      match DesignNormalizer.Normalize(dto, db)
      case Failure(e) => Failure(e)
      case Success(normalized) =>
        match AskModel(normalized.payload, oracle, host)
        case Failure(e) => Failure(e)
        case Success(ai) => Assemble(normalized.source, ai, host)
  }

  /** The payload the model is asked about, when the request gets that far. */
  function Payload(dto: ValidateDesignDto, db: DesignNormalizer.Database): seq<Prop>
    requires DesignNormalizer.Normalize(dto, db).Success?
  {
    DesignNormalizer.Normalize(dto, db).value.payload
  }

  /** A request without exactly one channel is rejected before anything else runs. */
  lemma BadRequestFirst(dto: ValidateDesignDto, db: DesignNormalizer.Database, oracle: string -> Completion, host: Host)
    requires !InputTypeValidator.ExactlyOne(HasText(dto.designId), dto.structuredInput.Some?, HasText(dto.freeText))
    ensures ValidateDesign(dto, db, oracle, host) == Failure(BadRequest(InputTypeValidator.ExactlyOneMessage))
  {
  }

  /** An unknown design id is NotFound, whatever the AI would have answered. */
  lemma UnknownDesignNotFound(dto: ValidateDesignDto, db: DesignNormalizer.Database, oracle: string -> Completion, host: Host)
    requires HasText(dto.designId) && dto.structuredInput.None? && !HasText(dto.freeText)
    requires dto.designId.value !in db
    ensures ValidateDesign(dto, db, oracle, host) == Failure(NotFound(DesignNormalizer.NotFoundMessage))
  {
  }

  /** A failing AI call surfaces as ServiceUnavailable. */
  lemma CallFailureUnavailable(dto: ValidateDesignDto, db: DesignNormalizer.Database, oracle: string -> Completion, host: Host)
    requires InputTypeValidator.ValidateSingleInput(dto).Pass?
    requires DesignNormalizer.Normalize(dto, db).Success?
    requires "toString" !in Keys(Payload(dto, db))
    requires oracle(ObjectText) == CallFailed
    ensures ValidateDesign(dto, db, oracle, host) == Failure(ServiceUnavailable(UnavailableMessage))
  {
  }

  /**
   * A payload with an own `toString` property cannot be put into the prompt: the request ends
   * with a 500 before the model is asked, whatever it would have answered.
   */
  lemma OwnToStringIsInternalError(dto: ValidateDesignDto, db: DesignNormalizer.Database, oracle: string -> Completion, host: Host)
    requires InputTypeValidator.ValidateSingleInput(dto).Pass?
    requires DesignNormalizer.Normalize(dto, db).Success?
    requires "toString" in Keys(Payload(dto, db))
    ensures ValidateDesign(dto, db, oracle, host) == Failure(InternalServerError(InternalErrorMessage))
  {
  }

  /** For instance, a structured object that has a `toString` property, sent on its own. */
  lemma StructuredToStringIsInternalError(
    dto: ValidateDesignDto, db: DesignNormalizer.Database, oracle: string -> Completion, host: Host)
    requires !HasText(dto.designId) && !HasText(dto.freeText)
    requires dto.structuredInput.Some? && "toString" in Keys(dto.structuredInput.value)
    ensures ValidateDesign(dto, db, oracle, host) == Failure(InternalServerError(InternalErrorMessage))
  {
    DesignNormalizer.StructuredPassThrough(dto, db);
    OwnToStringIsInternalError(dto, db, oracle, host);
  }

  /**
   * After the single-input check, a request with neither a design id nor a structured object has
   * a non-empty free text: the extractor's non-null assertion is safe.
   */
  lemma FreeTextPresent(dto: ValidateDesignDto)
    requires InputTypeValidator.ValidateSingleInput(dto).Pass?
    requires !HasText(dto.designId) && dto.structuredInput.None?
    ensures HasText(dto.freeText)
  {
  }

  /**
   * The pipeline fails only with BadRequest, NotFound, the 500 of a design that cannot be put
   * into the prompt, or ServiceUnavailable: neither the extractor's BadGateway nor the guard's
   * can be reached.
   */
  lemma NeverBadGateway(dto: ValidateDesignDto, db: DesignNormalizer.Database, oracle: string -> Completion, host: Host)
    ensures var r := ValidateDesign(dto, db, oracle, host);
      r.Failure? ==> r.error.BadRequest? || r.error.NotFound? || r.error.InternalServerError? || r.error.ServiceUnavailable?
  {
    if InputTypeValidator.ValidateSingleInput(dto).Pass? {
      if !HasText(dto.designId) && dto.structuredInput.None? {
        FreeTextPresent(dto);
      }
      var normalized := DesignNormalizer.Normalize(dto, db);
      if normalized.Success? {
        var reply := AskModel(normalized.value.payload, oracle, host);
        if reply.Success? {
          ServiceOutputPassesGuard(reply.value);
        }
      }
    }
  }

  /**
   * A report is built from the model's answer to the fixed prompt text; its confidence is the
   * AI service's, which is never 0 or missing.
   */
  lemma ReportFollowsReply(dto: ValidateDesignDto, db: DesignNormalizer.Database, oracle: string -> Completion, host: Host)
    requires ValidateDesign(dto, db, oracle, host).Success?
    ensures var ai := ShapedReply(oracle(ObjectText), host).value;
      var report := ValidateDesign(dto, db, oracle, host).value;
      && report == BuildReport(DesignNormalizer.Normalize(dto, db).value.source, ai, host)
      && report.confidence == ai.confidence
      && report.confidence != Num(0.0)
  {
  }

  /**
   * A request that passes the check, normalises to a payload the prompt can hold, and receives
   * a reply that shapes without a throw gets the report built from that reply.
   */
  lemma StagesSucceedReport(dto: ValidateDesignDto, db: DesignNormalizer.Database, oracle: string -> Completion, host: Host)
    requires InputTypeValidator.ValidateSingleInput(dto).Pass?
    requires DesignNormalizer.Normalize(dto, db).Success?
    requires "toString" !in Keys(Payload(dto, db))
    requires ShapedReply(oracle(ObjectText), host).Success?
    ensures ValidateDesign(dto, db, oracle, host)
      == Success(BuildReport(DesignNormalizer.Normalize(dto, db).value.source, ShapedReply(oracle(ObjectText), host).value, host))
  {
    ServiceOutputPassesGuard(ShapedReply(oracle(ObjectText), host).value);
  }

  /**
   * A reply the parser rejects still yields a report: no fields, no results, overall PASS (every
   * one of no entries passes) and confidence 0.5.
   */
  lemma UnparseableReplyPasses(dto: ValidateDesignDto, db: DesignNormalizer.Database, oracle: string -> Completion, host: Host)
    requires InputTypeValidator.ValidateSingleInput(dto).Pass?
    requires DesignNormalizer.Normalize(dto, db).Success?
    requires "toString" !in Keys(Payload(dto, db))
    requires oracle(ObjectText).Replied? && host.parse(ParserInput(oracle(ObjectText).content)) == None
    ensures ValidateDesign(dto, db, oracle, host)
      == Success(Report(DesignNormalizer.Normalize(dto, db).value.source, Obj([]), [], PASS, Num(FallbackConfidence)))
  {
    UnparseableReplyDegrades(oracle(ObjectText).content, host);
    ServiceOutputPassesGuard(AiResult(Obj([]), [], Num(FallbackConfidence)));
  }

  /** A reply whose `validation` is `true` or `"valid"` always yields overall PASS. */
  lemma AutoPassedReplyPasses(dto: ValidateDesignDto, db: DesignNormalizer.Database, oracle: string -> Completion, host: Host)
    requires ValidateDesign(dto, db, oracle, host).Success?
    requires var c := oracle(ObjectText);
      && c.Replied?
      && var raw := Get(ParsedReply(c.content, host), "validation"); raw == Bool(true) || raw == Str("valid")
    ensures ValidateDesign(dto, db, oracle, host).value.overallStatus == PASS
  {
    var c := oracle(ObjectText);
    var ai := ShapedReply(c, host).value;
    forall i | 0 <= i < |ai.validation| ensures ai.validation[i].status == Str("PASS") {
      AutoPassCoversFields(c, host, i);
    }
  }

  /**
   * An entry of the reply's `validation` array without a truthy `status` gets the status FAIL,
   * so the whole report fails: a missing status never counts as a pass.
   */
  lemma MissingStatusFails(
    dto: ValidateDesignDto, db: DesignNormalizer.Database, oracle: string -> Completion, host: Host,
    items: seq<Value>, i: nat)
    requires ValidateDesign(dto, db, oracle, host).Success?
    requires oracle(ObjectText).Replied?
    requires Get(ParsedReply(oracle(ObjectText).content, host), "validation") == Arr(items)
    requires i < |items| && !Nullish(items[i]) && !Truthy(Get(items[i], "status"))
    ensures ValidateDesign(dto, db, oracle, host).value.overallStatus == FAIL
  {
    var c := oracle(ObjectText);
    ValidationFollowsArray(c, host, items);
    var ai := ShapedReply(c, host).value;
    assert ai.validation[i].status == Str("FAIL");
  }

  /**
   * The model is never shown the design, only the fixed prompt text. So two successful requests
   * that receive the same completion get the same fields, rows, verdict and confidence, whatever
   * their designs; only `inputSource` can tell them apart.
   */
  lemma SameReplySameReport(
    dto1: ValidateDesignDto, dto2: ValidateDesignDto, db: DesignNormalizer.Database,
    oracle1: string -> Completion, oracle2: string -> Completion, host: Host)
    requires ValidateDesign(dto1, db, oracle1, host).Success?
    requires ValidateDesign(dto2, db, oracle2, host).Success?
    requires oracle1(ObjectText) == oracle2(ObjectText)
    ensures var r1, r2 := ValidateDesign(dto1, db, oracle1, host).value, ValidateDesign(dto2, db, oracle2, host).value;
      && r1.fields == r2.fields
      && r1.results == r2.results
      && r1.overallStatus == r2.overallStatus
      && r1.confidence == r2.confidence
  {
    ReportFollowsReply(dto1, db, oracle1, host);
    ReportFollowsReply(dto2, db, oracle2, host);
  }
}

=== FILE: design_types.dfy ===
/** The request body and the normalised payload shared by the pipeline's stages. */
module DesignTypes {
  import opened Results
  import opened JsValues

  /**
   * The body of POST /design/validate once the global ValidationPipe has run: each channel is
   * absent (undefined or null, both None here) or has its declared type.
   */
  datatype ValidateDesignDto = ValidateDesignDto(
    designId: Option<string>,
    structuredInput: Option<seq<Prop>>,
    freeText: Option<string>)

  /** A string channel is truthy when present and non-empty. */
  predicate HasText(channel: Option<string>) {
    channel.Some? && channel.value != ""
  }

  /** Which channel produced the payload. */
  datatype Source = DB | STRUCTURED | TEXT

  /** The normaliser's result: the provenance tag and the design's fields as an object. */
  datatype Normalized = Normalized(source: Source, payload: seq<Prop>)
}

=== FILE: input_type_validator.dfy ===
/** The check that a request uses exactly one input channel. */
module InputTypeValidator {
  import opened Results
  import opened JsValues
  import opened DesignTypes

  const ExactlyOneMessage := "Exactly one input type must be provided"

  /** Exactly one of three conditions holds. */
  predicate ExactlyOne(a: bool, b: bool, c: bool) {
    (a && !b && !c) || (!a && b && !c) || (!a && !b && c)
  }

  function TextValue(channel: Option<string>): Value {
    match channel
    case Some(s) => Str(s)
    case None => Undefined
  }

  function ObjectValue(channel: Option<seq<Prop>>): Value {
    match channel
    case Some(props) => Obj(props)
    case None => Undefined
  }

  /** `[dto.designId, dto.structuredInput, dto.freeText]`. */
  function Channels(dto: ValidateDesignDto): seq<Value> {
    [TextValue(dto.designId), ObjectValue(dto.structuredInput), TextValue(dto.freeText)]
  }

  /** `values.filter(Boolean)`: the truthy values, in order. */
  function TruthyOnly(values: seq<Value>): (r: seq<Value>)
    ensures |r| <= |values|
    ensures forall v :: v in r ==> Truthy(v) && v in values
    ensures forall v :: v in values && Truthy(v) ==> v in r
  {
    if values == [] then []
    else (if Truthy(values[0]) then [values[0]] else []) + TruthyOnly(values[1..])
  }

  lemma TruthyOnlyOfThree(a: Value, b: Value, c: Value)
    ensures |TruthyOnly([a, b, c])|
      == (if Truthy(a) then 1 else 0) + (if Truthy(b) then 1 else 0) + (if Truthy(c) then 1 else 0)
  {
    assert [a, b, c][1..] == [b, c];
    assert [b, c][1..] == [c];
    assert [c][1..] == [];
    assert |TruthyOnly([c])| == (if Truthy(c) then 1 else 0);
    assert |TruthyOnly([b, c])| == (if Truthy(b) then 1 else 0) + |TruthyOnly([c])|;
  }

  /**
   * validateSingleInput: passes exactly when one channel is truthy. An empty designId or
   * freeText does not count; a structuredInput object counts even when it is empty.
   */
  function ValidateSingleInput(dto: ValidateDesignDto): (r: Outcome)
    ensures r.Pass? <==> ExactlyOne(HasText(dto.designId), dto.structuredInput.Some?, HasText(dto.freeText))
    ensures r.Fail? ==> r.error == BadRequest(ExactlyOneMessage)
  {
    var inputs := TruthyOnly(Channels(dto));
    TruthyOnlyOfThree(TextValue(dto.designId), ObjectValue(dto.structuredInput), TextValue(dto.freeText));
    if |inputs| != 1 then Fail(BadRequest(ExactlyOneMessage)) else Pass
  }

  /** An empty string in designId is ignored, so it may accompany the free text. */
  lemma EmptyIdIsNotCounted(text: string)
    requires text != ""
    ensures ValidateSingleInput(ValidateDesignDto(Some(""), None, Some(text))) == Pass
  {
  }

  /** `{}` is truthy: an empty structured object next to free text is two channels. */
  lemma EmptyObjectIsCounted(text: string)
    requires text != ""
    ensures ValidateSingleInput(ValidateDesignDto(None, Some([]), Some(text))).Fail?
  {
  }
}

=== FILE: results.dfy ===
/** Optional values and the HTTP errors the pipeline ends with. */
module Results {

  /** A value that may be missing; `None` also stands for a JavaScript operation that threw. */
  datatype Option<+T> = None | Some(value: T) {

    function GetOr(default: T): T {
      match this
      case Some(v) => v
      case None => default
    }
  }

  /**
   * The NestJS HTTP exceptions raised by the core, each with the message the source gives it,
   * and the 500 response NestJS sends for any other exception that reaches it.
   */
  datatype Error =
    | BadRequest(message: string)          // 400
    | NotFound(message: string)            // 404
    | InternalServerError(message: string) // 500
    | BadGateway(message: string)          // 502
    | ServiceUnavailable(message: string)  // 503

  /** The value a stage returns, or the exception it throws. */
  datatype Result<+T> = Success(value: T) | Failure(error: Error)

  /** The result of a check that returns nothing on success. */
  datatype Outcome = Pass | Fail(error: Error)
}

=== FILE: strings.dfy ===
/** The String.prototype operations the core uses: includes, toLowerCase and trim. */
module Strings {

  /** `s.startsWith(p)`: p is a prefix of s. */
  predicate StartsWith(s: string, p: string) {
    |p| <= |s| && s[..|p|] == p
  }

  /** `s.includes(p)`: p occurs in s at some position. */
  predicate Contains(s: string, p: string)
    decreases |s|
  {
    |p| <= |s| && (s[..|p|] == p || Contains(s[1..], p))
  }

  /** An occurrence at position i is an occurrence. */
  lemma {:induction false} ContainsAtIndex(s: string, p: string, i: nat)
    requires i + |p| <= |s| && s[i..i + |p|] == p
    ensures Contains(s, p)
  {
    if i > 0 {
      assert s[1..][i - 1..i - 1 + |p|] == s[i..i + |p|];
      ContainsAtIndex(s[1..], p, i - 1);
    }
  }

  /** Every character of an occurring p is a character of s. */
  lemma {:induction false} ContainedChars(s: string, p: string, c: char)
    ensures Contains(s, p) && c in p ==> c in s
    decreases |s|
  {
    if |p| <= |s| && s[..|p|] != p {
      ContainedChars(s[1..], p, c);
      if c in s[1..] {
        var k :| 0 <= k < |s| - 1 && s[1..][k] == c;
        assert s[k + 1] == c;
      }
    }
  }

  /** The lower-case form of one character; only the letters A to Z change. */
  function LowerChar(c: char): char {
    if 'A' <= c <= 'Z' then (c as int + 32) as char else c
  }

  /** `s.toLowerCase()`, character by character. */
  function Lower(s: string): (r: string)
    ensures |r| == |s|
    ensures forall i :: 0 <= i < |s| ==> r[i] == LowerChar(s[i])
  {
    if s == [] then [] else [LowerChar(s[0])] + Lower(s[1..])
  }

  /** Lower-casing keeps occurrences: an occurrence of p is an occurrence of its lower-case form. */
  lemma {:induction false} ContainsLower(s: string, p: string)
    ensures Contains(s, p) ==> Contains(Lower(s), Lower(p))
    decreases |s|
  {
    if Contains(s, p) {
      if s[..|p|] == p {
        assert Lower(s)[..|p|] == Lower(p);
      } else {
        ContainsLower(s[1..], p);
        assert Lower(s)[1..] == Lower(s[1..]);
      }
    }
  }

  /** The characters `trim` removes: WhiteSpace and LineTerminator of ECMAScript. */
  predicate IsSpace(c: char) {
    var n := c as int;
    n == 0x09 || n == 0x0A || n == 0x0B || n == 0x0C || n == 0x0D || n == 0x20
    || n == 0xA0 || n == 0x1680 || (0x2000 <= n <= 0x200A) || n == 0x2028 || n == 0x2029
    || n == 0x202F || n == 0x205F || n == 0x3000 || n == 0xFEFF
  }

  /** The number of space characters that open s. */
  function LeadingSpace(s: string): (n: nat)
    ensures n <= |s|
    ensures forall k :: 0 <= k < n ==> IsSpace(s[k])
    ensures n < |s| ==> !IsSpace(s[n])
  {
    if s == [] || !IsSpace(s[0]) then 0 else LeadingSpace(s[1..]) + 1
  }

  /** The number of space characters that close s. */
  function TrailingSpace(s: string): (n: nat)
    ensures n <= |s|
    ensures forall k :: |s| - n <= k < |s| ==> IsSpace(s[k])
    ensures n < |s| ==> !IsSpace(s[|s| - 1 - n])
  {
    if s == [] || !IsSpace(s[|s| - 1]) then 0 else TrailingSpace(s[..|s| - 1]) + 1
  }

  /**
   * `s.trim()`: the infix s[i..j] left once the space characters at both ends are dropped;
   * everything dropped is a space character and what is left neither starts nor ends with one.
   */
  function Trim(s: string): (r: string)
    ensures exists i, j ::
              && 0 <= i <= j <= |s| && r == s[i..j]
              && (forall k :: 0 <= k < i ==> IsSpace(s[k]))
              && (forall k :: j <= k < |s| ==> IsSpace(s[k]))
    ensures r != [] ==> !IsSpace(r[0]) && !IsSpace(r[|r| - 1])
  {
    var i := LeadingSpace(s);
    var t := TrailingSpace(s[i..]);
    s[i..|s| - t]
  }
}

=== FILE: text_extraction.dfy ===
/** The rule-based extractor that turns free text into design fields. */
module TextExtraction {
  import opened Results
  import opened JsValues
  import Strings

  const ExtractionFailedMessage := "Failed to extract structured data from text"

  /**
   * One extraction rule: when `trigger` occurs in the text (in its lower-cased form when
   * `lowerCased`), the field `key` is set to `val`.
   */
  datatype Rule = Rule(trigger: string, lowerCased: bool, key: string, val: Value)

  const StandardRule := Rule("IEC", false, "standard", Str("IEC 60502-1"))
  const CsaRule := Rule("10", false, "csa", Num(10.0))
  const MaterialRule := Rule("cu", true, "conductor_material", Str("Cu"))
  const ClassRule := Rule("class 2", true, "conductor_class", Str("Class 2"))
  const InsulationRule := Rule("pvc", true, "insulation_material", Str("PVC"))
  const ThicknessRule := Rule("1.0", false, "insulation_thickness", Num(1.0))

  /** The six rules, in the order the extractor applies them. */
  const Rules: seq<Rule> := [StandardRule, CsaRule, MaterialRule, ClassRule, InsulationRule, ThicknessRule]

  predicate Fires(rule: Rule, text: string) {
    Strings.Contains(if rule.lowerCased then Strings.Lower(text) else text, rule.trigger)
  }

  predicate DistinctRuleKeys(rules: seq<Rule>) {
    forall i, j :: 0 <= i < j < |rules| ==> rules[i].key != rules[j].key
  }

  /** One rule applied to the object built so far. */
  function Applied(rule: Rule, acc: seq<Prop>, text: string): seq<Prop> {
    if Fires(rule, text) then Assign(acc, rule.key, rule.val) else acc
  }

  /** Applies rules[i..], in order, to the object built so far. */
  function ApplyRules(rules: seq<Rule>, i: nat, acc: seq<Prop>, text: string): seq<Prop>
    requires i <= |rules|
    decreases |rules| - i
  {
    if i == |rules| then acc else ApplyRules(rules, i + 1, Applied(rules[i], acc, text), text)
  }

  /** The fields the extractor finds in a string. */
  function ExtractedFields(text: string): seq<Prop> {
    ApplyRules(Rules, 0, [], text)
  }

  /**
   * `extract(text)` as the normaliser calls it: a string yields its fields; a missing text makes
   * the first `includes` throw, which the catch turns into BadGateway.
   */
  function Extraction(text: Option<string>): Result<seq<Prop>> {
    match text
    case Some(t) => Success(ExtractedFields(t))
    case None => Failure(BadGateway(ExtractionFailedMessage))
  }

  /** TextExtractionService.extract: six conditional writes into a fresh result object. */
  method Extract(text: Option<string>) returns (r: Result<seq<Prop>>)
    ensures r == Extraction(text)
  {
    if text.None? {
      return Failure(BadGateway(ExtractionFailedMessage));
    }
    var t := text.value;
    var result: seq<Prop> := [];
    if Strings.Contains(t, "IEC") {
      result := Assign(result, "standard", Str("IEC 60502-1"));
    }
    if Strings.Contains(t, "10") {
      result := Assign(result, "csa", Num(10.0));
    }
    if Strings.Contains(Strings.Lower(t), "cu") {
      result := Assign(result, "conductor_material", Str("Cu"));
    }
    if Strings.Contains(Strings.Lower(t), "class 2") {
      result := Assign(result, "conductor_class", Str("Class 2"));
    }
    if Strings.Contains(Strings.Lower(t), "pvc") {
      result := Assign(result, "insulation_material", Str("PVC"));
    }
    if Strings.Contains(t, "1.0") {
      result := Assign(result, "insulation_thickness", Num(1.0));
    }
    Unrolled(t);
    return Success(result);
  }

  /** The fold over the six rules written out as six nested steps. */
  lemma Unrolled(t: string)
    ensures ExtractedFields(t)
      == Applied(ThicknessRule, Applied(InsulationRule, Applied(ClassRule,
           Applied(MaterialRule, Applied(CsaRule, Applied(StandardRule, [], t), t), t), t), t), t)
  {
    var a1 := Applied(StandardRule, [], t);
    var a2 := Applied(CsaRule, a1, t);
    var a3 := Applied(MaterialRule, a2, t);
    var a4 := Applied(ClassRule, a3, t);
    var a5 := Applied(InsulationRule, a4, t);
    var a6 := Applied(ThicknessRule, a5, t);
    calc {
      ApplyRules(Rules, 0, [], t);
      ApplyRules(Rules, 1, a1, t);
      ApplyRules(Rules, 2, a2, t);
      ApplyRules(Rules, 3, a3, t);
      ApplyRules(Rules, 4, a4, t);
      ApplyRules(Rules, 5, a5, t);
      ApplyRules(Rules, 6, a6, t);
      a6;
    }
  }

  /**
   * A rule's key ends up set exactly when that rule fires, to that rule's value; any other key
   * keeps the value it had before.
   */
  lemma {:induction false} ApplyRulesFind(rules: seq<Rule>, i: nat, acc: seq<Prop>, text: string, k: string)
    requires i <= |rules| && DistinctRuleKeys(rules)
    ensures forall j :: i <= j < |rules| && rules[j].key == k ==>
      Find(ApplyRules(rules, i, acc, text), k) == if Fires(rules[j], text) then Some(rules[j].val) else Find(acc, k)
    ensures (forall j :: i <= j < |rules| ==> rules[j].key != k) ==>
      Find(ApplyRules(rules, i, acc, text), k) == Find(acc, k)
    decreases |rules| - i
  {
    if i < |rules| {
      var acc' := Applied(rules[i], acc, text);
      ApplyRulesFind(rules, i + 1, acc', text, k);
      assert Find(acc', k) == if rules[i].key == k && Fires(rules[i], text) then Some(rules[i].val) else Find(acc, k);
      if rules[i].key == k {
        assert forall j :: i + 1 <= j < |rules| ==> rules[j].key != k;
      }
    }
  }

  /**
   * Each of the six fields is present exactly when its trigger occurs, with the rule's fixed
   * value; the rules are independent of one another.
   */
  lemma ExtractedField(text: string, i: nat)
    requires i < |Rules|
    ensures Find(ExtractedFields(text), Rules[i].key) == if Fires(Rules[i], text) then Some(Rules[i].val) else None
  {
    ApplyRulesFind(Rules, 0, [], text, Rules[i].key);
  }

  /** No key other than the six rule keys can appear. */
  lemma OnlyRuleKeys(text: string, k: string)
    requires forall i :: 0 <= i < |Rules| ==> Rules[i].key != k
    ensures Find(ExtractedFields(text), k) == None
  {
    ApplyRulesFind(Rules, 0, [], text, k);
  }

  /** The standard rule is case-sensitive: text without a capital I never sets "standard". */
  lemma StandardNeedsCapitals(t: string)
    requires 'I' !in t
    ensures Find(ExtractedFields(t), "standard") == None
  {
    Strings.ContainedChars(t, "IEC", 'I');
    ExtractedField(t, 0);
  }

  /** The material rule ignores case: "CU" anywhere sets the material to "Cu". */
  lemma MaterialIgnoresCase(t: string)
    requires Strings.Contains(t, "CU")
    ensures Find(ExtractedFields(t), "conductor_material") == Some(Str("Cu"))
  {
    Strings.ContainsLower(t, "CU");
    assert Strings.Lower("CU") == "cu";
    ExtractedField(t, 2);
  }

  /** Any "10" sets the cross-section to 10, also inside a longer number such as 2010. */
  lemma AnyTenSetsCsa(t: string, i: nat)
    requires i + 2 <= |t| && t[i..i + 2] == "10"
    ensures Find(ExtractedFields(t), "csa") == Some(Num(10.0))
  {
    Strings.ContainsAtIndex(t, "10", i);
    ExtractedField(t, 1);
  }

  /** When no rule fires, the object is left as it was. */
  lemma {:induction false} NothingFires(rules: seq<Rule>, i: nat, acc: seq<Prop>, text: string)
    requires i <= |rules|
    requires forall j :: i <= j < |rules| ==> !Fires(rules[j], text)
    ensures ApplyRules(rules, i, acc, text) == acc
    decreases |rules| - i
  {
    if i < |rules| {
      NothingFires(rules, i + 1, acc, text);
    }
  }

  /** Text that no rule recognises gives an empty object, not an error. */
  lemma UnrecognisedTextIsEmpty(t: string)
    requires forall i :: 0 <= i < |Rules| ==> !Fires(Rules[i], t)
    ensures Extraction(Some(t)) == Success([])
  {
    NothingFires(Rules, 0, [], t);
  }
}

=== FILE: values.dfy ===
/**
 * JavaScript values as the pipeline handles them: what JSON.parse produces, plus `undefined`
 * (a missing property, or a property assigned an undefined value).
 */
module JsValues {
  import opened Results

  /** A JavaScript value. Numbers are exact reals: there is no NaN, infinity or negative zero. */
  datatype Value =
    | Undefined
    | Null
    | Bool(b: bool)
    | Num(n: real)
    | Str(s: string)
    | Arr(items: seq<Value>)
    | Obj(props: seq<Prop>)

  /** One own property of an object; an object keeps its properties in insertion order. */
  datatype Prop = Prop(key: string, val: Value)

  /**
   * The engine operations whose results depend on IEEE-754 formatting or on the JSON grammar,
   * taken as parameters: `parse` is JSON.parse (None when it throws), `numberToString` is
   * Number::toString, `stringToNumber` is StringToNumber (None for NaN).
   */
  datatype Host = Host(
    parse: string -> Option<Value>,
    numberToString: real -> string,
    stringToNumber: string -> Option<real>)

  /** JavaScript truthiness. */
  predicate Truthy(v: Value) {
    match v
    case Undefined | Null => false
    case Bool(b) => b
    case Num(n) => n != 0.0
    case Str(s) => s != ""
    case Arr(_) | Obj(_) => true
  }

  /** `v == null`: undefined or null, the two values `??` and `?.` treat as missing. */
  predicate Nullish(v: Value) {
    v.Undefined? || v.Null?
  }

  /** Object.keys: the property names in insertion order. */
  function Keys(props: seq<Prop>): (ks: seq<string>)
    ensures |ks| == |props|
    ensures forall i :: 0 <= i < |props| ==> ks[i] == props[i].key
  {
    if props == [] then [] else [props[0].key] + Keys(props[1..])
  }

  /** No property name occurs twice, as in every object the engine builds. */
  predicate DistinctKeys(props: seq<Prop>) {
    forall i, j :: 0 <= i < j < |props| ==> props[i].key != props[j].key
  }

  /** The value of the own property `key`, None when there is none. */
  function Find(props: seq<Prop>, key: string): (r: Option<Value>)
    ensures r.None? <==> key !in Keys(props)
    ensures r.Some? ==> Prop(key, r.value) in props
  {
    if props == [] then None
    else if props[0].key == key then Some(props[0].val)
    else Find(props[1..], key)
  }

  /** In an object without repeated names, a property is found with its own value. */
  lemma {:induction false} FindDistinct(props: seq<Prop>, i: nat)
    requires DistinctKeys(props) && i < |props|
    ensures Find(props, props[i].key) == Some(props[i].val)
  {
    if i > 0 {
      assert props[0].key != props[i].key;
      assert DistinctKeys(props[1..]) by {
        forall a, b | 0 <= a < b < |props| - 1
          ensures props[1..][a].key != props[1..][b].key
        {
          assert props[a + 1].key != props[b + 1].key;
        }
      }
      FindDistinct(props[1..], i - 1);
    }
  }

  /** `obj[key]` on an object: the own property's value, or undefined. */
  function LookupOr(props: seq<Prop>, key: string): Value {
    match Find(props, key)
    case Some(v) => v
    case None => Undefined
  }

  /** `obj[key] = val`: overwrite the property in place, or append it when it is new. */
  function Assign(props: seq<Prop>, key: string, val: Value): (r: seq<Prop>)
    ensures Find(r, key) == Some(val)
    ensures forall k :: k != key ==> Find(r, k) == Find(props, k)
  {
    if props == [] then [Prop(key, val)]
    else if props[0].key == key then [Prop(key, val)] + props[1..]
    else [props[0]] + Assign(props[1..], key, val)
  }

  /** Assigning keeps the order of the names and appends a new name at the end. */
  lemma {:induction false} AssignKeys(props: seq<Prop>, key: string, val: Value)
    ensures Keys(Assign(props, key, val)) == if key in Keys(props) then Keys(props) else Keys(props) + [key]
  {
    if props != [] && props[0].key != key {
      var rest := props[1..];
      AssignKeys(rest, key, val);
      assert Assign(props, key, val) == [props[0]] + Assign(rest, key, val);
      assert Keys(props) == [props[0].key] + Keys(rest);
      assert key in Keys(props) <==> key in Keys(rest);
    }
  }

  /** Assigning keeps the names of an object distinct. */
  lemma AssignDistinct(props: seq<Prop>, key: string, val: Value)
    requires DistinctKeys(props)
    ensures DistinctKeys(Assign(props, key, val))
  {
    var r := Assign(props, key, val);
    var ks, rs := Keys(props), Keys(r);
    AssignKeys(props, key, val);
    forall i, j | 0 <= i < j < |r| ensures r[i].key != r[j].key {
      assert rs[i] == r[i].key && rs[j] == r[j].key;
      if key !in ks && j == |props| {
        assert rs[i] == ks[i];
      } else {
        assert rs[i] == ks[i] && rs[j] == ks[j];
      }
    }
  }

  /** The property names read with `.` in the core; none of them is an array index or `length`. */
  const MemberNames: set<string> :=
    {"fields", "validation", "confidence", "overall", "field", "expected", "status", "comment"}

  /**
   * `v.name` on a value that is not null or undefined: an own property of an object, and
   * undefined on every other value, none of whose prototypes defines one of these names.
   */
  function Get(v: Value, name: string): Value
    requires !Nullish(v)
    requires name in MemberNames
  {
    if v.Obj? then LookupOr(v.props, name) else Undefined
  }

  /** ToString, as used for property keys and by Array.prototype.join. */
  function ToStr(v: Value, host: Host): string
    decreases v
  {
    match v
    case Undefined => "undefined"
    case Null => "null"
    case Bool(b) => if b then "true" else "false"
    case Num(n) => host.numberToString(n)
    case Str(s) => s
    case Arr(items) => Join(items, host)
    case Obj(_) => "[object Object]"
  }

  /** Array.prototype.join(","): null and undefined elements print as the empty string. */
  function Join(items: seq<Value>, host: Host): string
    decreases items
  {
    if items == [] then ""
    else
      (if Nullish(items[0]) then "" else ToStr(items[0], host))
      + (if |items| == 1 then "" else "," + Join(items[1..], host))
  }

  /** ToNumber after ToPrimitive, as `>` and `/` apply it; None stands for NaN. */
  function ToNumber(v: Value, host: Host): Option<real> {
    match v
    case Undefined => None
    case Null => Some(0.0)
    case Bool(b) => Some(if b then 1.0 else 0.0)
    case Num(n) => Some(n)
    case Str(s) => host.stringToNumber(s)
    case Arr(_) => host.stringToNumber(ToStr(v, host))
    case Obj(_) => None
  }
}
